=== FILE: README.md ===
# Kontalk XMPP server core in Dafny

A model of three parts of the Kontalk XMPP server, with proofs about them.

**The TLS session wrapper (`kontalk/xmppserver/tls.py`).** `TLSSessionProtocol` sits between a transport, its GnuTLS session and the application protocol. `startTLS` switches a plain connection to TLS in the middle of a stream.

- Every handler is a pure function of the wrapper's fields: `write`/`_write`, `dataReceived`, `loseConnection`, `connectionLost`, `registerProducer` and `unregisterProducer`, together with the helpers `_flushSend`, `_flushReceive`, `_shutdownTLS` and `_tlsShutdownFinished`.
- Each handler returns three things: the fields after it returns, the effects it had on its collaborators in order, and the exception that escaped it, if any.
- The GnuTLS session is an oracle (`TlsEngine.Oracle`) that answers the wrapper's numbered calls. Its `send` answers with the count of bytes taken, "want read" or an error. Its `recv` answers with bytes, "would block", end-of-stream or an error. Its `bye` answers with a boolean.
- The oracle is required to take at least one byte of a non-empty input and never more than it was given. It is also required to hand out only finitely many data chunks between feeds.

**The component router (`kontalk/xmppserver/component/router.py`).** `route`, `broadcast`, `addRoute` and `removeRoute` operate on a map from host names (and `None`, the default route) to component streams.

- A stanza is a record whose `to` and `from` attributes are each absent, Python `None`, or a string.
- JID parsing is a parameter `hostOf`, which gives the host of a JID string or nothing when `jid.JID` rejects it.
- The sends of one broadcast form a set, since they come from iterating a dict.

**Token login (`kontalk/xmppserver/auth.py`).** This covers what `KontalkToken.checkToken` does after the OpenPGP verification, `AuthKontalkToken._cbTokenValid` and `requestAvatarId`, and `SASLRealm.requestAvatar`.

- Signature verification is a parameter. It gives no signatures, every signature the library lists (fingerprint and status, whatever the status) with the signed text, or an exception. `checkToken` reads only the first listed signature's fingerprint and never its status. So throughout, a "trusted" first signature means only one whose fingerprint matches the configured fingerprint or a keyring entry, not a verified one.
- Python's `str.split(c, n)` and `str.upper` (ASCII, on Python 2 byte strings) are modelled and proved.

The modules follow the source:

| file | content |
|---|---|
| `base.dfy` | `Option`, `Result` |
| `engine.dfy` | the session oracle |
| `session.dfy` | the wrapper's handlers |
| `session_proofs.dfy` | `_flushReceive` and `_write` |
| `replay_proofs.dfy` | the replay of blocked writes in `dataReceived` |
| `runs_proofs.dfy` | whole runs of events |
| `reentry.dfy` | `_flushReceive` with an application that calls back into the wrapper |
| `upgrade.dfy` | `startTLS` |
| `router.dfy` | router operations |
| `router_proofs.dfy` | router properties |
| `auth.dfy` | token check |
| `auth_proofs.dfy` | token properties |

## Model

| member | source | states |
|---|---|---|
| TlsEngine.RecvFailure | kontalk/xmppserver/tls.py:260-263 | a session error is CONNECTION_LOST exactly when it is (-1, "Unexpected EOF"); otherwise the error itself is kept |
| TlsUpgrade.Direction | kontalk/xmppserver/tls.py:73-76 | this end is the TLS client iff `normal` agrees with the transport's client default |
| TlsUpgrade.MakeConnection | kontalk/xmppserver/tls.py:175-208 | the new wrapper starts with an empty buffer, no producer and the TLS connection up. A completed handshake sends nothing. A handshake that would block only flushes to the transport. Any other handshake error escapes |
| TlsUpgrade.StartTLS | kontalk/xmppserver/tls.py:73-104 | the role is `Direction`; with no producer the upgrade is just the wrapper's connection; with a producer, unregistering it from the transport comes first |
| TlsUpgrade.StartTLSKeepsProducer | kontalk/xmppserver/tls.py:78-104 | a producer present before the upgrade is registered again with the wrapper, in the same mode, unless the handshake failed; the wrapper is left with no blocked writes and the invariant holding |
| TlsSession.Fresh | kontalk/xmppserver/tls.py:151-155 | the initial wrapper satisfies the invariant: the TLS connection is up, not disconnecting, no handshake yet, writes not blocked, an empty buffer, no producer and no stored reason |
| TlsSession.FlushSend | kontalk/xmppserver/tls.py:211-222 | one `recv`; a data answer is written to the transport as it is, and nothing else is written; "would block" is absorbed; end-of-stream escapes as the end-of-stream error and a session error escapes with its own code and message |
| TlsSession.ShutdownTLS | kontalk/xmppserver/tls.py:308-315 | `bye` comes first. Then come only transport writes and a close. Without an escape, the transport is closed iff `bye` reported both sides done |
| TlsSession.ShutdownFinished | kontalk/xmppserver/tls.py:318-331 | the reason is stored, the TLS connection is marked lost, and the transport is asked to close; nothing else changes |
| TlsSession.FlushReceive | kontalk/xmppserver/tls.py:237-276 | the buffer, the blocked flag, the producer and `disconnecting` are kept, and flags only go one way. Nothing is encrypted and the application is not told of loss. Once the TLS connection is lost, only a flush happens |
| TlsSession.ReadEnded | kontalk/xmppserver/tls.py:245-251 | end-of-stream says `bye` first and finishes the TLS connection with no reason of its own |
| TlsSession.ReadFailed | kontalk/xmppserver/tls.py:252-266 | a session error finishes the TLS connection with that error's failure, without `bye` |
| TlsSession.SendLoop | kontalk/xmppserver/tls.py:390-413 | at most one chunk is appended to the buffer; writes become blocked iff it was. An appended chunk is non-empty and is exactly what the session refused with "want read". The reason changes only if the TLS connection is lost |
| TlsSession.WriteRaw | kontalk/xmppserver/tls.py:387-388 | after the TLS connection is lost, `_write` does nothing |
| TlsSession.Write | kontalk/xmppserver/tls.py:373-375 | after `loseConnection` without a producer, the bytes are dropped and nothing changes; otherwise this is `_write` |
| TlsSession.Replay | kontalk/xmppserver/tls.py:291-294 | retrying the old chunks only appends to the buffer (at most one chunk each), keeps the producer and `disconnecting`, and has only write effects |
| TlsSession.Unblock | kontalk/xmppserver/tls.py:287-299 | with no blocked writes nothing happens; otherwise the buffer does not grow, and nothing is delivered to the application |
| TlsSession.AfterReplay | kontalk/xmppserver/tls.py:295-299 | after the retry, `bye` is said iff writes are not blocked, the wrapper is disconnecting and no producer is registered; a registered producer is resumed last |
| TlsSession.DataReceived | kontalk/xmppserver/tls.py:285-301 | a `send` of the received bytes that raises ends the handler with no other effect. Otherwise the first effect records the prefix `send` reported taken, and no later effect hands the session anything. With no blocked writes the buffer is kept. Once the TLS connection is lost nothing reaches the application |
| TlsSession.ReportLost | kontalk/xmppserver/tls.py:346-348 | the application is told the stored reason in preference to the transport's, and the stored reason is cleared |
| TlsSession.ConnectionLost | kontalk/xmppserver/tls.py:340-348 | the `bye`/read finalisation happens only if the TLS connection was not already lost. Each call tells the application of the loss once, as its last effect, and afterwards the connection is lost with no reason stored |
| TlsSession.LoseConnection | kontalk/xmppserver/tls.py:355-359 | a second call does nothing; only `disconnecting` and the call count change; `bye` is said iff this is the first call, no write is blocked and no producer is registered |
| TlsSession.RegisterProducer | kontalk/xmppserver/tls.py:430-445 | after the TLS connection is lost, the producer is told to stop and is not kept. A second producer raises. Otherwise the producer is registered with the transport and kept, and a pull producer's adapter starts |
| TlsSession.UnregisterProducer | kontalk/xmppserver/tls.py:451-457 | with no producer the lookup raises. Otherwise the producer is forgotten and unregistered, and a pull producer's adapter stops. The deferred `bye` is said iff disconnecting and not blocked |
| TlsSessionProofs.FlushReceiveWouldBlock | kontalk/xmppserver/tls.py:240-243 | "would block" ends the read loop with the TLS connection up and one flush |
| TlsSessionProofs.FlushReceiveEndOfStream | kontalk/xmppserver/tls.py:245-251 | end-of-stream delivers nothing, says `bye`, and finishes with no reason |
| TlsSessionProofs.FlushReceiveError | kontalk/xmppserver/tls.py:252-266 | a session error finishes with its failure (EOF squashed), without `bye` |
| TlsSessionProofs.FlushReceiveDelivers | kontalk/xmppserver/tls.py:237-271 | the application receives exactly the run of decrypted chunks the session produced, in order, and nothing else |
| TlsSessionProofs.FlushReceiveHandshake | kontalk/xmppserver/tls.py:267-270 | `_handshakeDone` is set by the read loop iff it delivered something |
| TlsSessionProofs.FlushReceiveEnds | kontalk/xmppserver/tls.py:237-266 | the answer that ends the run of data decides how the loop ends: "would block" keeps the connection and the stored reason; end-of-stream says `bye` and leaves no reason; an error stores its failure |
| TlsSessionProofs.SendLoopSent | kontalk/xmppserver/tls.py:408-413 | an accepted send hands over the prefix the session took, flushes, and continues with the rest of the input |
| TlsSessionProofs.SendLoopConserves | kontalk/xmppserver/tls.py:390-413 | no byte is lost or duplicated: the accepted bytes are a prefix of the input, and with the buffered remainder they make the whole input |
| TlsSessionProofs.SendLoopHandshake | kontalk/xmppserver/tls.py:408-411 | `_handshakeDone` is set by `_write` iff the session accepted some byte |
| TlsSessionProofs.SendLoopRemainder | kontalk/xmppserver/tls.py:394-396 | what `_write` buffers is a suffix of its input |
| TlsSessionProofs.SendLoopPauses | kontalk/xmppserver/tls.py:394-399 | when `_write` blocks, the registered producer is paused as its last effect |
| TlsSessionProofs.SendLoopFails | kontalk/xmppserver/tls.py:400-407 | a session error stops the loop: the TLS connection is lost, the stored reason is the failure of the failing send (the loop's last call, on a suffix of the input) with that send's code and message, nothing is buffered and the transport is closed last |
| TlsSessionProofs.SendLoopWrites | kontalk/xmppserver/tls.py:390-413 | inside `_write`, the transport receives exactly the data answers of the `recv` calls that follow the accepted sends, in order, and nothing else |
| TlsSessionProofs.DataReceivedFeeds | kontalk/xmppserver/tls.py:280-285 | the received bytes are passed to `send` once: the session is handed exactly the prefix it took and nothing else, so any part it does not take is dropped, and all of the bytes reach it iff `send` took them all |
| TlsSessionProofs.WriteNoLoss | kontalk/xmppserver/tls.py:373-399 | `write` drops with no change in the two cases, and otherwise conserves its bytes; a block sets the flag and pauses the producer |
| TlsReplayProofs.ReplayConserves | kontalk/xmppserver/tls.py:291-294 | retrying the old buffer loses and duplicates no byte: the accepted bytes and the new buffer are, as a multiset, the old buffer |
| TlsReplayProofs.ReplayAllBlocked | kontalk/xmppserver/tls.py:291-294 | if the session accepts nothing during the retry, the old buffer is buffered again whole and in order |
| TlsReplayProofs.ReplayFifo | kontalk/xmppserver/tls.py:291-294 | if the session keeps refusing sends once it has asked to read, the retry keeps order: the accepted bytes followed by the new buffer are exactly the old buffer |
| TlsReplayProofs.Overtaking | kontalk/xmppserver/tls.py:391-399 | a session that refuses the first send with "want read" and takes every later one whole meets everything the wrapper relies on, yet does not keep refusing |
| TlsReplayProofs.WriteWhileBlocked | kontalk/xmppserver/tls.py:373-399 | a `write` during a block, with a session that keeps refusing after asking to read, accepts nothing and appends the new bytes whole behind the waiting chunks |
| TlsReplayProofs.WriteCanOvertake | kontalk/xmppserver/tls.py:373-399 | with a session that is not sticky, a first `write` is refused and buffered and a second `write` is accepted while the first still waits |
| TlsReplayProofs.ReplayCanReorder | kontalk/xmppserver/tls.py:291-294 | with that session, replaying two buffered chunks hands the second to the session while the first is buffered again, so order needs the stickiness hypothesis |
| TlsReplayProofs.UnblockParts | kontalk/xmppserver/tls.py:287-299 | the unblocking step is the retry followed by effects that encrypt nothing; the deferred `bye` comes iff nothing is blocked any more, the wrapper is disconnecting and no producer is registered |
| TlsReplayProofs.UnblockConserves | kontalk/xmppserver/tls.py:287-294 | across the unblocking step, the accepted bytes and the new buffer are, as a multiset, the old buffer |
| TlsReplayProofs.UnblockFifo | kontalk/xmppserver/tls.py:287-294 | with a session that keeps refusing after asking to read, the unblocking step drains the old buffer in FIFO order |
| TlsReplayProofs.UnblockShutdown | kontalk/xmppserver/tls.py:295-299 | the shutdown is deferred while a write is still blocked or a producer is registered; a registered producer is resumed last |
| TlsSessionRuns.ConnectionLostReason | kontalk/xmppserver/tls.py:340-348 | the application is told the stored reason if TLS had already ended. Otherwise it is told the failure of the session error that ends the final read, or else the transport's reason |
| TlsSessionRuns.ConnectionLostRepeats | kontalk/xmppserver/tls.py:336-348 | after a `connectionLost` that raised nothing, a second one changes nothing but tells the application again, with the second reason; the guard at line 340 covers only the TLS finalisation |
| TlsReentry.Nested | kontalk/xmppserver/tls.py:352-373 | the calls the application makes back into the wrapper (`write`, `loseConnection`) run in order and stop at the first exception; flags only rise, the invariant is kept, and nothing is delivered or reported lost by them |
| TlsReentry.FlushReceiveIn | kontalk/xmppserver/tls.py:237-276 | the read loop with the application's calls back run after each delivered chunk, before `_lostTLSConnection` is tested again: flags only rise, the invariant is kept, and once lost nothing is read or delivered |
| TlsReentry.FlushReceiveInQuiet | kontalk/xmppserver/tls.py:237-276 | with an application that makes no calls back, the re-entrant loop is exactly `FlushReceive`, so the properties proved of `FlushReceive` hold for it |
| TlsReentry.ReentryStopsOnLoss | kontalk/xmppserver/tls.py:237-271 | a call back that finishes the TLS connection ends the loop: the chunk being handled is the last one delivered and the connection stays lost |
| TlsReentry.Failing | kontalk/xmppserver/tls.py:237-271 | a valid session with two chunks ready whose every send fails |
| TlsReentry.CallbackCutsRead | kontalk/xmppserver/tls.py:237-271 | with that session the plain loop delivers both chunks, while an application that writes back after the first loses the connection and never gets the second |
| TlsSessionRuns.AfterLater | kontalk/xmppserver/tls.py:285-457 | over any run of events, the flags only go one way and the wrapper invariant is kept |
| TlsSessionRuns.LostQuiet | kontalk/xmppserver/tls.py:237-271 | once the TLS connection is lost, no event delivers data to the application, and it stays lost |
| TlsSessionRuns.LostStaysQuiet | kontalk/xmppserver/tls.py:237 | after the TLS connection is lost, no event of any later run delivers data |
| TlsSessionRuns.CloseIdempotent | kontalk/xmppserver/tls.py:355-357 | after `loseConnection`, a later call at any point of any run does nothing |
| XmppRouter.HostOf | kontalk/xmppserver/component/router.py:117 | reading `from` raises KeyError when it is absent, `jid.JID(None)` raises, a rejected JID raises, otherwise its host |
| XmppRouter.Recipients | kontalk/xmppserver/component/router.py:118-120 | the hosts a broadcast reaches: every route, except the sender's own host unless `same` |
| XmppRouter.Broadcast | kontalk/xmppserver/component/router.py:114-123 | a sender that does not parse makes the broadcast raise; every copy is the stanza addressed to a recipient host and sent on that host's stream |
| XmppRouter.Bounce | kontalk/xmppserver/component/router.py:108-111 | the error element has type `unroutable`, is addressed to the original `from`, and holds the stanza as its only child |
| XmppRouter.Route | kontalk/xmppserver/component/router.py:91-112 | a stanza without `to` is broadcast with the sender skipped; a `to` of `None` or a rejected JID raises |
| XmppRouter.AddRoute | kontalk/xmppserver/component/router.py:54-67 | `addRoute` raises iff the announcement broadcast raises; afterwards the table maps the destination to the new stream, all else unchanged |
| XmppRouter.RemoveRoute | kontalk/xmppserver/component/router.py:75-80 | the destination's key is removed and every other route is kept, even when the announcement raises (for a `None` or unparsable destination) |
| XmppRouterProofs.RemoveRouteAnnounces | kontalk/xmppserver/component/router.py:75-80 | for a destination whose host parses, nothing escapes, and every remaining route gets the unavailable presence from the destination, addressed to its host, iff it is not the route of the destination's own host |
| XmppRouterProofs.ServedBy | kontalk/xmppserver/component/router.py:101-104 | a host is served iff it has its own route or a default route exists |
| XmppRouterProofs.RouteAddressed | kontalk/xmppserver/component/router.py:99-112 | an addressed stanza with its namespace reset is sent once to the stream serving its host. With no such stream, an `unroutable` error goes back to the origin, or a missing `from` raises |
| XmppRouterProofs.RouteOnlyToItsHost | kontalk/xmppserver/component/router.py:99-104 | an addressed stanza never reaches a stream through another host's route |
| XmppRouterProofs.BroadcastReaches | kontalk/xmppserver/component/router.py:118-123 | a broadcast reaches host `k`'s route, with a copy addressed to `k`, iff `k` is not the sender's host or `same` is set |
| XmppRouterProofs.BroadcastOneCopyPerHost | kontalk/xmppserver/component/router.py:118-123 | two copies of a broadcast with the same address are the same copy |
| XmppRouterProofs.RouteUnaddressed | kontalk/xmppserver/component/router.py:93-95 | a stanza with no `to` is only broadcast: every copy is addressed to a host in the table other than the sender's; it fails iff the sender does not parse |
| XmppRouterProofs.AddRouteAnnounces | kontalk/xmppserver/component/router.py:54-64 | the new destination is announced to every route already there except its own host's. The new stream gets one presence per host already there, and nothing else |
| XmppRouterProofs.AddRouteNotToSelf | kontalk/xmppserver/component/router.py:54-67 | the announcement goes out before the route is added, so a new stream is not sent its own announcement |
| XmppRouterProofs.AddThenRoute | kontalk/xmppserver/component/router.py:67-102 | after `addRoute`, a stanza addressed to the new host goes to the new stream only |
| XmppRouterProofs.AddDefaultRouteRaises | kontalk/xmppserver/component/router.py:54-58 | adding the default route raises in `jid.JID(None)` before anything changes |
| XmppRouterProofs.RemoveThenRoute | kontalk/xmppserver/component/router.py:75-104 | after `removeRoute`, a stanza for the removed host falls back to the default route, or bounces; the unavailable presence goes only to remaining routes |
| TokenAuth.FindFirst | kontalk/xmppserver/auth.py:62 | the first separator index has no separator before it |
| TokenAuth.SplitJoin | kontalk/xmppserver/auth.py:62 | joining the parts of `split('|', n)` with `'|'` gives the text back |
| TokenAuth.SplitCount | kontalk/xmppserver/auth.py:62-66 | `split(c, n)` yields one part more than the occurrences of `c` it splits at, which is at most `n` |
| TokenAuth.SplitPartsFree | kontalk/xmppserver/auth.py:62 | every part but the last is free of the separator |
| TokenAuth.Upper | kontalk/xmppserver/auth.py:74 | upper-casing keeps the length and maps each ASCII lower-case letter to its capital, leaving all else alone |
| TokenAuth.Payload | kontalk/xmppserver/auth.py:62-71 | the payload is accepted iff the text has exactly one `'|'` and the userid before it has the configured length; the userid is that prefix |
| TokenAuth.CheckToken | kontalk/xmppserver/auth.py:47-86 | a userid comes back iff there is a first listed signature with a fingerprint and the payload is well-formed. That fingerprint, whatever the signature's status, must match the truthy configured fingerprint, or else some keyring entry, case-insensitively. Every other path, exceptions included, gives `None` |
| TokenAuth.MatchesKeyring | kontalk/xmppserver/auth.py:78-80 | the keyring loop finds a match iff some entry equals the first signature's fingerprint case-insensitively |
| TokenAuth.CbTokenValid | kontalk/xmppserver/auth.py:98-102 | a truthy userid passes unchanged; anything else is an UnauthorizedLogin failure |
| TokenAuth.RequestAvatarId | kontalk/xmppserver/auth.py:104-107 | a login succeeds iff the token check gives a non-empty userid, and then with that userid |
| TokenAuth.RequestAvatar | kontalk/xmppserver/auth.py:124-129 | the realm answers iff the XMPP user interface was asked for, with that interface, the avatar built for the id and that avatar's logout; otherwise NotImplementedError |
| TokenAuthProofs.UpperIdempotent | kontalk/xmppserver/auth.py:74 | upper-casing twice is upper-casing once |
| TokenAuthProofs.TokenRoundTrip | kontalk/xmppserver/auth.py:58-80 | a token with text `userid|rest`, for a userid of the configured length and no further `'|'`, whose first listed signature carries a matching fingerprint yields that userid, whatever that signature's status and whatever the other signatures |
| TokenAuthProofs.SignatureStatusIgnored | kontalk/xmppserver/auth.py:57-80 | the first signature's verification status plays no part: a bad or unverifiable signature gives the same answer as a good one with the same fingerprint |
| TokenAuthProofs.SignerCaseInsensitive | kontalk/xmppserver/auth.py:74-79 | the first signature's fingerprint is compared without regard to case |
| TokenAuthProofs.KeyringCaseInsensitive | kontalk/xmppserver/auth.py:78-79 | matching against the upper-cased keyring is matching against the keyring |
| TokenAuthProofs.TrustCaseInsensitive | kontalk/xmppserver/auth.py:74-79 | the configured fingerprint and the keyring entries are compared without regard to case |
| TokenAuthProofs.LoginNeedsTrustedSigner | kontalk/xmppserver/auth.py:47-107 | an accepted login has a signed token whose first listed signature carries a matching fingerprint (its status unchecked), a text with exactly one `'|'`, and the non-empty userid before it |
| TokenAuthProofs.TokenLogsIn | kontalk/xmppserver/auth.py:98-129 | `requestAvatarId` followed by `requestAvatar`: a token with text `userid|rest` whose first listed signature carries a matching fingerprint, valid or not, logs in the avatar built for `userid`, with its logout |
| TokenAuthProofs.LoginBuildsSignedUser | kontalk/xmppserver/auth.py:98-129 | conversely, an avatar obtained through `requestAvatarId` and `requestAvatar` is the one built for the userid at the head of a signed token whose first listed signature carries a matching fingerprint, and only when the XMPP user interface was asked for |

## Left out

- The GnuTLS session (`ClientSession`/`ServerSession`, `handshake`, `send`, `recv`, `bye`) is the oracle parameter. `Valid` states the two things the wrapper relies on: a send takes at least one byte and no more than offered, and data runs between feeds are finite.
- The promise in the class documentation that errors after the handshake become `ConnectionLost` (tls.py lines 130-138) is not modelled, since nothing reads `_handshakeDone`. The flag itself is modelled.
- `directlyProvides`, interface copying, `_BypassTLS`, `getHandle`, `getPeerCertificate`, the factory's `registerProtocol` and `logPrefix`, and `writeSequence` (a join before `write`) are Twisted and zope plumbing with no effect on the state machine.
- `_PullToPush` and `_ProducerMembrane` are not part of this model. A producer is an abstract object that is paused, resumed and stopped, and whose pull adapter is started and stopped.
- The drain check at tls.py line 296 reads `self.producer`, which `ProtocolWrapper` resolves to the transport, not `self._producer`. It is modelled as "no producer registered with the wrapper", the evidently intended reading.
- `connectionLost` ignores what `bye` returns, and so does the model. The wrapped protocol's `connectionLost` is an effect, not modelled further.
- `TlsReplayProofs.ReplayFifo` and `TlsReplayProofs.UnblockFifo` prove FIFO order only when the session keeps refusing sends once it has asked to read, because `_write` does not look at `_writeBlockedOnRead`. After one chunk of the old buffer blocks, the next chunk is offered again, and a session that accepted it would overtake the blocked bytes, as `TlsReplayProofs.ReplayCanReorder` exhibits. For the same reason a `write()` made while writes are blocked goes straight to `_write` and, without stickiness, can overtake the buffered chunks (`TlsReplayProofs.WriteCanOvertake`); with stickiness it is appended behind them (`TlsReplayProofs.WriteWhileBlocked`). Conservation is proved for every session (`ReplayConserves`, `UnblockConserves`).
- `TlsSession.FlushReceive`, `TlsSession.DataReceived`, `TlsSession.AfterReplay` and `TlsSession.SendLoop` treat every callback as a bare effect that cannot call back into the wrapper. This covers the application's `dataReceived` (tls.py line 271), `resumeProducing` (line 299) and `pauseProducing` (line 398). In the source, the application usually answers a delivered stanza at once with `write` on the same wrapper. That write uses session calls between two `recv`s and can end the TLS connection, which stops the loop early. So the contracts of these handlers, `FlushReceiveDelivers` among them, describe a run whose callbacks do not re-enter the wrapper. `TlsReentry.FlushReceiveIn` models the re-entrant read loop for `write` and `loseConnection` called from `dataReceived`. `TlsReentry.FlushReceiveInQuiet` ties it to `FlushReceive` when the application calls nothing back, and `TlsReentry.ReentryStopsOnLoss` shows that a call back that ends the connection ends the loop. That loop is not wired into `DataReceived` or the event runs, and re-entrant producer callbacks are not modelled.
- `TlsSession.DataReceived` ignores the count the session's `send` returns, as tls.py line 285 does. Bytes it did not take are dropped: they are not retried, buffered or reported (`TlsSessionProofs.DataReceivedFeeds`). The session is built on the transport's socket (line 187), so the model does not claim that the bytes reach the session's receive side; a `Fed` effect records only what `send` reported taken.
- `TlsSession.ConnectionLost` follows the code, not its documentation. The documentation (tls.py lines 336-338) promises that the base class's `connectionLost` is invoked only once. The code guards only the TLS finalisation, and lines 346-348 notify the application on every call. `TlsSessionRuns.ConnectionLostRepeats` exhibits the second notification. Whether the documentation or the code is intended is not evident, so the model keeps the code.
- `TlsSessionRuns.ConnectionLostReason` assumes the wrapper invariant (`Inv`), which every wrapper reached from `MakeConnection` satisfies (`AfterLater`).
- JID parsing, domish elements and XML serialisation are abstracted: `hostOf` gives the host, a stanza is a record, and a send is recorded rather than serialised.
- wokkel's base `Router.removeRoute` is not part of this model. It is taken to delete the destination's key, without raising when the key is missing.
- The `/bind`, `/unbind` and `/*` observers that `addRoute` installs, the `onBind`/`onUnbind` stubs, and `XMPPRouterFactory` are left out. They are wiring and stubs, not decisions.
- `broadcast` deep-copies the stanza. In a model of immutable values the caller's stanza cannot change, so there is nothing to state.
- pyme's signature verification is the `Verification` parameter. The model keeps each signature's status only to show that `checkToken` ignores it (`TokenAuthProofs.SignatureStatusIgnored`): a bad or unverifiable signature whose fingerprint matches is accepted. `util.USERID_LENGTH_RESOURCE` is a parameter, since the `util` module is not part of this model.
- `buildAvatar` (with `util.split_userid`) is a function parameter of `RequestAvatar`. The logout callable is the avatar's bound `logout` method, modelled as a reference to the avatar.
- Upper-casing is ASCII only, as Python 2's `str.upper` on byte strings in the C locale.
- Logging and `traceback.print_exc` are left out.

=== FILE: auth.dfy ===
/**
 * Login by Kontalk token: the check of a verified token's payload
 * (`KontalkToken.checkToken` after the OpenPGP signature check), the
 * credentials checker's accept/reject step, and the realm's avatar request.
 *
 * Signature verification is a parameter: no signature, every signature
 * the library lists, whatever its status, with the signed text, or an
 * exception. `checkToken` reads only the first listed signature's
 * fingerprint and never its status, so a bad or unverifiable signature
 * whose fingerprint matches is accepted: "trusted signer" below means only
 * that the first listed fingerprint matches. Strings are Python 2 byte
 * strings, so upper-casing is ASCII only.
 */
module TokenAuth {
  import opened Base

  /**
   * One signature as `op_verify_result` lists it: the key's fingerprint
   * (`None` when the library reports none) and the verification status
   * (0 for a good signature, otherwise the library's error code).
   */
  datatype Signature = Signature(fpr: Option<string>, status: int)

  /** What `op_verify` and `op_verify_result` gave. */
  datatype Verification =
    | NoSignatures
    | Signed(signatures: seq<Signature>, text: string)
    | VerifyRaised

  /** The number of occurrences of `c` in `s`. */
  function Count(s: string, c: char): nat {
    multiset(s)[c]
  }

  /** The index of the first `c` in `s`, or `|s|` when there is none. */
  function Find(s: string, c: char): (i: nat)
    ensures i <= |s|
  {
    if |s| == 0 then 0 else if s[0] == c then 0 else 1 + Find(s[1..], c)
  }

  /** `Find` stops at the first `c`: none before it, and one there unless it is the end. */
  lemma {:induction false} FindFirst(s: string, c: char)
    ensures c !in s[..Find(s, c)]
    ensures Find(s, c) < |s| ==> s[Find(s, c)] == c
    decreases |s|
  {
    if |s| > 0 && s[0] != c {
      FindFirst(s[1..], c);
      assert s[..Find(s, c)] == [s[0]] + s[1..][..Find(s[1..], c)];
    }
  }

  /** Python's `s.split(c, n)`: split at the first `n` occurrences of `c`. */
  function Split(s: string, c: char, n: nat): (parts: seq<string>)
    ensures |parts| >= 1
    decreases |s|
  {
    var i := Find(s, c);
    if n == 0 || i == |s| then [s] else [s[..i]] + Split(s[i + 1..], c, n - 1)
  }

  /** Python's `c.join(parts)`. */
  function Join(parts: seq<string>, c: char): string
    requires |parts| >= 1
  {
    if |parts| == 1 then parts[0] else parts[0] + [c] + Join(parts[1..], c)
  }

  lemma SplitUnfold(s: string, c: char, n: nat)
    requires n > 0 && Find(s, c) < |s|
    ensures Split(s, c, n) == [s[..Find(s, c)]] + Split(s[Find(s, c) + 1..], c, n - 1)
  {
  }

  lemma JoinCons(head: string, tail: seq<string>, c: char)
    requires |tail| >= 1
    ensures Join([head] + tail, c) == head + [c] + Join(tail, c)
  {
    assert ([head] + tail)[1..] == tail;
  }

  lemma Around(s: string, i: nat)
    requires i < |s|
    ensures s[..i] + [s[i]] + s[i + 1..] == s
  {
  }

  /** Past the first `c`, one `c` fewer is left. */
  lemma CountPastFirst(s: string, c: char)
    requires Find(s, c) < |s|
    ensures Count(s[Find(s, c) + 1..], c) + 1 == Count(s, c)
  {
    var i := Find(s, c);
    FindFirst(s, c);
    Around(s, i);
    assert multiset(s) == multiset(s[..i]) + multiset([c]) + multiset(s[i + 1..]);
  }

  /** Joining the parts after the first `c` back onto the text before it. */
  lemma SplitJoinStep(s: string, c: char, n: nat)
    requires n > 0 && Find(s, c) < |s|
    requires Join(Split(s[Find(s, c) + 1..], c, n - 1), c) == s[Find(s, c) + 1..]
    ensures Join(Split(s, c, n), c) == s
  {
    var i := Find(s, c);
    var tail := Split(s[i + 1..], c, n - 1);
    FindFirst(s, c);
    calc {
      Join(Split(s, c, n), c);
    == { SplitUnfold(s, c, n); }
      Join([s[..i]] + tail, c);
    == { JoinCons(s[..i], tail, c); }
      s[..i] + [c] + s[i + 1..];
    == { Around(s, i); }
      s;
    }
  }

  /** Splitting and joining again gives the string back. */
  lemma {:induction false} SplitJoin(s: string, c: char, n: nat)
    ensures Join(Split(s, c, n), c) == s
    decreases |s|
  {
    var i := Find(s, c);
    if n > 0 && i < |s| {
      SplitJoin(s[i + 1..], c, n - 1);
      SplitJoinStep(s, c, n);
    } else {
      assert Split(s, c, n) == [s];
    }
  }

  /** The part count after the first `c`, from the count of the rest. */
  lemma SplitCountStep(s: string, c: char, n: nat)
    requires n > 0 && Find(s, c) < |s|
    requires var m := Count(s[Find(s, c) + 1..], c);
      |Split(s[Find(s, c) + 1..], c, n - 1)| == 1 + (if m < n - 1 then m else n - 1)
    ensures |Split(s, c, n)| == 1 + (if Count(s, c) < n then Count(s, c) else n)
  {
    SplitUnfold(s, c, n);
    CountPastFirst(s, c);
  }

  /** `split(c, n)` makes one more part than the occurrences of `c` it splits at: at most `n`. */
  lemma {:induction false} SplitCount(s: string, c: char, n: nat)
    ensures |Split(s, c, n)| == 1 + (if Count(s, c) < n then Count(s, c) else n)
    decreases |s|
  {
    var i := Find(s, c);
    if n == 0 || i == |s| {
      assert Split(s, c, n) == [s];
      if i == |s| {
        FindFirst(s, c);
        assert s[..i] == s;
      }
    } else {
      SplitCount(s[i + 1..], c, n - 1);
      SplitCountStep(s, c, n);
    }
  }

  /** Every part but the last is free of `c`. */
  lemma {:induction false} SplitPartsFree(s: string, c: char, n: nat)
    ensures forall k :: 0 <= k < |Split(s, c, n)| - 1 ==> c !in Split(s, c, n)[k]
    decreases |s|
  {
    var i := Find(s, c);
    if n == 0 || i == |s| {
      assert Split(s, c, n) == [s];
    } else {
      var tail := Split(s[i + 1..], c, n - 1);
      var parts := [s[..i]] + tail;
      SplitUnfold(s, c, n);
      SplitPartsFree(s[i + 1..], c, n - 1);
      FindFirst(s, c);
      forall k | 0 <= k < |parts| - 1
        ensures c !in parts[k]
      {
        if k > 0 {
          assert parts[k] == tail[k - 1];
        }
      }
    }
  }

  /** ASCII upper case, as Python 2's `str.upper` in the C locale. */
  function UpperChar(ch: char): (u: char)
    ensures ('a' <= ch <= 'z') ==> u as int == ch as int - 32
    ensures !('a' <= ch <= 'z') ==> u == ch
  {
    if 'a' <= ch <= 'z' then (ch as int - 32) as char else ch
  }

  function Upper(s: string): (u: string)
    ensures |u| == |s|
    ensures forall j :: 0 <= j < |s| ==> u[j] == UpperChar(s[j])
  {
    if |s| == 0 then [] else [UpperChar(s[0])] + Upper(s[1..])
  }

  /** Two fingerprints compare equal after upper-casing both. */
  predicate SameFingerprint(a: string, b: string) {
    Upper(a) == Upper(b)
  }

  /** Python truthiness of an optional string. */
  predicate Truthy(s: Option<string>) {
    s.Some? && |s.value| > 0
  }

  /**
   * The userid the payload names: the text must split on `'|'` (at most
   * twice) into exactly two parts, and the first part must have the userid
   * length.
   */
  function Payload(text: string, useridLength: nat): (r: Option<string>)
    ensures r.Some? <==> Count(text, '|') == 1 && Find(text, '|') == useridLength
    ensures r.Some? ==>
              && |r.value| == useridLength < |text| && text[useridLength] == '|'
              && text[..useridLength] == r.value && '|' !in r.value
  {
    SplitCount(text, '|', 2);
    SplitPartsFree(text, '|', 2);
    FindFirst(text, '|');
    SplitJoin(text, '|', 2);
    var data := Split(text, '|', 2);
    if |data| != 2 then None
    else if |data[0]| != useridLength then None
    else Some(data[0])
  }

  /**
   * `checkToken` after verification: with a first listed signature, a
   * well-formed payload and that signature's fingerprint matching the given fingerprint (when truthy) or
   * some keyring entry, the payload's userid; `None` otherwise, including
   * when anything raises (a signature without a fingerprint). The
   * signature's status is never read.
   */
  function CheckToken(v: Verification, fingerprint: Option<string>, keyring: seq<string>, useridLength: nat): (r: Option<string>)
    ensures r.Some? <==>
      && v.Signed? && |v.signatures| > 0 && v.signatures[0].fpr.Some?
      && Payload(v.text, useridLength).Some?
      && ((Truthy(fingerprint) && SameFingerprint(v.signatures[0].fpr.value, fingerprint.value))
          || exists k :: k in keyring && SameFingerprint(v.signatures[0].fpr.value, k))
    ensures r.Some? ==> r == Payload(v.text, useridLength)
  {
    if !v.Signed? || |v.signatures| == 0 then None
    else
      var userid := Payload(v.text, useridLength);
      if userid.None? then None
      else if v.signatures[0].fpr.None? then None
      else
        var fpr := v.signatures[0].fpr.value;
        if Truthy(fingerprint) && SameFingerprint(fpr, fingerprint.value) then userid
        else if MatchesKeyring(fpr, keyring) then userid
        else None
  }

  /** The loop over the keyring. */
  function MatchesKeyring(fpr: string, keyring: seq<string>): (b: bool)
    ensures b <==> exists k :: k in keyring && SameFingerprint(fpr, k)
  {
    if |keyring| == 0 then false
    else if SameFingerprint(fpr, keyring[0]) then true
    else
      assert forall k :: k in keyring <==> k == keyring[0] || k in keyring[1..];
      MatchesKeyring(fpr, keyring[1..])
  }

  /** Why a login was refused. */
  datatype LoginError = UnauthorizedLogin

  /** `_cbTokenValid`: a truthy userid passes; anything else is refused. */
  function CbTokenValid(userid: Option<string>): (r: Result<string, LoginError>)
    ensures r.Ok? <==> Truthy(userid)
    ensures r.Ok? ==> r.value == userid.value
  {
    if Truthy(userid) then Ok(userid.value) else Err(UnauthorizedLogin)
  }

  /** `requestAvatarId`: check the token with the configured fingerprint (already `str`) and keyring. */
  function RequestAvatarId(v: Verification, fingerprint: string, keyring: seq<string>, useridLength: nat): (r: Result<string, LoginError>)
    ensures r.Ok? <==> CheckToken(v, Some(fingerprint), keyring, useridLength).Some? && useridLength > 0
    ensures r.Ok? ==> Some(r.value) == CheckToken(v, Some(fingerprint), keyring, useridLength)
  {
    CbTokenValid(CheckToken(v, Some(fingerprint), keyring, useridLength))
  }

  /** The interfaces a portal may ask the realm for. */
  datatype Interface = IXMPPUser | OtherInterface(name: string)

  /** The avatar's bound `logout` method. */
  datatype Logout<A> = Logout(of: A)

  /** What `requestAvatar` returns: the interface, the avatar and its logout. */
  datatype Login<A> = Login(iface: Interface, avatar: A, logout: Logout<A>)

  /** Why the realm refused. */
  datatype RealmError = NotImplemented

  /** `requestAvatar`: only the XMPP user interface is supported; the avatar is built by `buildAvatar`. */
  function RequestAvatar<A>(avatarId: string, interfaces: seq<Interface>, buildAvatar: string -> A): (r: Result<Login<A>, RealmError>)
    ensures r.Ok? <==> IXMPPUser in interfaces
    ensures r.Ok? ==> r.value.iface == IXMPPUser && r.value.avatar == buildAvatar(avatarId)
    ensures r.Ok? ==> r.value.logout == Logout(r.value.avatar)
  {
    if IXMPPUser in interfaces then
      var avatar := buildAvatar(avatarId);
      Ok(Login(IXMPPUser, avatar, Logout(avatar)))
    else Err(NotImplemented)
  }
}

=== FILE: auth_proofs.dfy ===
/**
 * What a token login guarantees: a token for a user whose first listed
 * signature carries a trusted fingerprint logs that user in, whatever that
 * signature's status; fingerprints compare case-insensitively; and nothing
 * but a signed, well-formed token with such a first signature gets through.
 * "Trusted" here means only that the fingerprint matches the configured one
 * or a keyring entry: the signature's validity is never checked.
 */
module TokenAuthProofs {
  import opened Base
  import opened TokenAuth

  /**
   * The status of the first listed signature plays no part: a bad or
   * unverifiable signature is treated like a good one with the same
   * fingerprint.
   */
  lemma SignatureStatusIgnored(sig: Signature, status: int, others: seq<Signature>, text: string,
                               fingerprint: Option<string>, keyring: seq<string>, useridLength: nat)
    ensures CheckToken(Signed([sig.(status := status)] + others, text), fingerprint, keyring, useridLength)
         == CheckToken(Signed([sig] + others, text), fingerprint, keyring, useridLength)
  {
  }

  /** Upper-casing twice changes nothing more. */
  lemma UpperIdempotent(s: string)
    ensures Upper(Upper(s)) == Upper(s)
  {
    assert forall j :: 0 <= j < |s| ==> UpperChar(UpperChar(s[j])) == UpperChar(s[j]);
  }

  lemma FindAfter(prefix: string, rest: string, c: char)
    requires c !in prefix
    ensures Find(prefix + [c] + rest, c) == |prefix|
    decreases |prefix|
  {
    if |prefix| > 0 {
      assert (prefix + [c] + rest)[1..] == prefix[1..] + [c] + rest;
      FindAfter(prefix[1..], rest, c);
    }
  }

  /**
   * A token whose text is `userid|rest` (a userid of the right length, no
   * further `'|'`) and whose first listed signature carries a trusted
   * fingerprint yields that userid, whatever that signature's status and
   * whatever the other signatures.
   */
  lemma TokenRoundTrip(userid: string, rest: string, fpr: string, status: int, others: seq<Signature>,
                       fingerprint: Option<string>, keyring: seq<string>, useridLength: nat)
    requires |userid| == useridLength && '|' !in userid && '|' !in rest
    requires (Truthy(fingerprint) && SameFingerprint(fpr, fingerprint.value))
             || exists k :: k in keyring && SameFingerprint(fpr, k)
    ensures CheckToken(Signed([Signature(Some(fpr), status)] + others, userid + "|" + rest), fingerprint, keyring, useridLength)
            == Some(userid)
  {
    var text := userid + "|" + rest;
    FindAfter(userid, rest, '|');
    assert text == userid + ['|'] + rest;
    assert multiset(text) == multiset(userid) + multiset(['|']) + multiset(rest);
    assert text[..useridLength] == userid;
  }

  /** The first signature's fingerprint is compared without regard to case. */
  lemma SignerCaseInsensitive(fpr: string, status: int, others: seq<Signature>, text: string,
                              fingerprint: Option<string>, keyring: seq<string>, useridLength: nat)
    ensures CheckToken(Signed([Signature(Some(Upper(fpr)), status)] + others, text), fingerprint, keyring, useridLength)
         == CheckToken(Signed([Signature(Some(fpr), status)] + others, text), fingerprint, keyring, useridLength)
  {
    UpperIdempotent(fpr);
  }

  /** Matching against an upper-cased keyring is matching against the keyring. */
  lemma {:induction false} KeyringCaseInsensitive(fpr: string, keyring: seq<string>)
    ensures MatchesKeyring(fpr, UpperAll(keyring)) == MatchesKeyring(fpr, keyring)
    decreases |keyring|
  {
    if |keyring| > 0 {
      UpperIdempotent(keyring[0]);
      assert UpperAll(keyring)[1..] == UpperAll(keyring[1..]);
      KeyringCaseInsensitive(fpr, keyring[1..]);
    }
  }

  /** The configured fingerprint and the keyring entries are compared without regard to case. */
  lemma TrustCaseInsensitive(v: Verification, fingerprint: string, keyring: seq<string>, useridLength: nat)
    ensures CheckToken(v, Some(Upper(fingerprint)), UpperAll(keyring), useridLength)
         == CheckToken(v, Some(fingerprint), keyring, useridLength)
  {
    UpperIdempotent(fingerprint);
    if v.Signed? && |v.signatures| > 0 && v.signatures[0].fpr.Some? {
      KeyringCaseInsensitive(v.signatures[0].fpr.value, keyring);
    }
  }

  /** Every keyring entry upper-cased. */
  function UpperAll(keyring: seq<string>): (u: seq<string>)
    ensures |u| == |keyring|
    ensures forall j :: 0 <= j < |keyring| ==> u[j] == Upper(keyring[j])
  {
    if |keyring| == 0 then [] else [Upper(keyring[0])] + UpperAll(keyring[1..])
  }

  /**
   * A login is accepted only for a signed token whose first listed
   * signature carries a trusted fingerprint, and then for the userid at the
   * head of the signed text.
   */
  lemma LoginNeedsTrustedSigner(v: Verification, fingerprint: string, keyring: seq<string>, useridLength: nat)
    ensures var r := RequestAvatarId(v, fingerprint, keyring, useridLength);
      r.Ok? ==>
        && v.Signed? && |v.signatures| > 0 && v.signatures[0].fpr.Some?
        && |r.value| == useridLength > 0
        && v.text[..useridLength] == r.value && v.text[useridLength] == '|'
        && Count(v.text, '|') == 1
        && (SameFingerprint(v.signatures[0].fpr.value, fingerprint)
            || exists k :: k in keyring && SameFingerprint(v.signatures[0].fpr.value, k))
  {
  }

  /**
   * A whole login as the portal runs it, `requestAvatarId` and then
   * `requestAvatar` with the id it gave: a token with text `userid|rest`
   * whose first listed signature carries a trusted fingerprint, valid or
   * not, logs in the avatar built for `userid`, with its logout.
   */
  lemma TokenLogsIn<A>(userid: string, rest: string, fpr: string, status: int, others: seq<Signature>,
                       fingerprint: string, keyring: seq<string>, useridLength: nat,
                       interfaces: seq<Interface>, buildAvatar: string -> A)
    requires |userid| == useridLength > 0 && '|' !in userid && '|' !in rest
    requires (|fingerprint| > 0 && SameFingerprint(fpr, fingerprint))
             || exists k :: k in keyring && SameFingerprint(fpr, k)
    requires IXMPPUser in interfaces
    ensures var id := RequestAvatarId(Signed([Signature(Some(fpr), status)] + others, userid + "|" + rest), fingerprint, keyring, useridLength);
      && id == Ok(userid)
      && RequestAvatar(id.value, interfaces, buildAvatar)
         == Ok(Login(IXMPPUser, buildAvatar(userid), Logout(buildAvatar(userid))))
  {
    TokenRoundTrip(userid, rest, fpr, status, others, Some(fingerprint), keyring, useridLength);
  }

  /**
   * Conversely, an avatar the portal obtains through a token login is the
   * one built for the userid at the head of a signed token whose first
   * listed signature carries a trusted fingerprint, and only when the XMPP
   * user interface was asked for.
   */
  lemma LoginBuildsSignedUser<A>(v: Verification, fingerprint: string, keyring: seq<string>, useridLength: nat,
                                 interfaces: seq<Interface>, buildAvatar: string -> A)
    ensures var id := RequestAvatarId(v, fingerprint, keyring, useridLength);
      id.Ok? && RequestAvatar(id.value, interfaces, buildAvatar).Ok? ==>
        var login := RequestAvatar(id.value, interfaces, buildAvatar).value;
        && IXMPPUser in interfaces
        && v.Signed? && |v.signatures| > 0 && v.signatures[0].fpr.Some?
        && (SameFingerprint(v.signatures[0].fpr.value, fingerprint)
            || exists k :: k in keyring && SameFingerprint(v.signatures[0].fpr.value, k))
        && useridLength < |v.text| && v.text[useridLength] == '|'
        && login == Login(IXMPPUser, buildAvatar(v.text[..useridLength]), Logout(buildAvatar(v.text[..useridLength])))
  {
    LoginNeedsTrustedSigner(v, fingerprint, keyring, useridLength);
  }
}

=== FILE: base.dfy ===
/** Small value types shared by the whole model. */
module Base {

  /** Python's `None` versus a present value. */
  datatype Option<+T> = None | Some(value: T)

  /** A value, or the failure a Python caller would receive instead. */
  datatype Result<+T, +E> = Ok(value: T) | Err(error: E)

  /** `p` is a prefix of `s`. */
  predicate IsPrefix<T(==)>(p: seq<T>, s: seq<T>) {
    |p| <= |s| && s[..|p|] == p
  }

  /** `q` is a suffix of `s`. */
  predicate IsSuffix<T(==)>(q: seq<T>, s: seq<T>) {
    |q| <= |s| && s[|s| - |q|..] == q
  }
}

=== FILE: engine.dfy ===
/**
 * The GnuTLS session behind the wrapper, as an oracle.
 *
 * The wrapper numbers every call it makes on its session (`send`, `recv`,
 * `bye`, `handshake`); an `Oracle` answers call number `k`. Since the wrapper
 * is deterministic, any run of a real session is the run of some oracle.
 */
module TlsEngine {

  newtype Byte = x: int | 0 <= x < 256

  type Bytes = seq<Byte>

  /** The reason handed to the application protocol's `connectionLost`. */
  datatype Failure =
    | ConnectionLost                              // twisted's CONNECTION_LOST
    | EngineFailure(code: int, message: string)   // a session error wrapped by `Failure()`
    | TransportReason(name: string)               // whatever the transport reported

  /** Outcome of `send`: a count of consumed bytes, `WantReadError`, or another error. */
  datatype SendOutcome = Sent(count: nat) | WantRead | SendError(code: int, message: string)

  /**
   * Outcome of `recv`: bytes, `OperationWouldBlock`/`OperationInterrupted`
   * (both `WouldBlock`), the end-of-stream `ValueError`, or a `GNUTLSError`.
   */
  datatype RecvOutcome =
    | Data(bytes: Bytes)
    | WouldBlock
    | EndOfStream
    | RecvError(code: int, message: string)

  /** Outcome of `handshake`. */
  datatype HandshakeOutcome =
    | HandshakeDone
    | HandshakeWouldBlock
    | HandshakeError(code: int, message: string)

  /**
   * The session's answers, by call number. `backlog(k)` bounds how many more
   * chunks of decrypted data the session can hand out from call `k` on
   * without being fed again.
   */
  datatype Oracle = Oracle(
    send: (nat, Bytes) -> SendOutcome,
    recv: nat -> RecvOutcome,
    bye: nat -> bool,
    handshake: nat -> HandshakeOutcome,
    backlog: nat -> nat)

  /** A successful `send` never claims more than it was given, and takes at least one byte of a non-empty input. */
  predicate SendFits(o: SendOutcome, input: Bytes) {
    o.Sent? ==> o.count <= |input| && (|input| > 0 ==> o.count > 0)
  }

  /** What the wrapper relies on from its session. */
  ghost predicate Valid(e: Oracle) {
    && (forall k: nat, b: Bytes :: SendFits(e.send(k, b), b))
    && (forall k: nat :: e.recv(k).Data? ==> e.backlog(k + 1) < e.backlog(k))
  }

  /**
   * The failure `_flushReceive` reports for a `recv` error: an EOF in
   * violation of the protocol becomes CONNECTION_LOST, anything else is kept.
   */
  function RecvFailure(code: int, message: string): (f: Failure)
    ensures f == ConnectionLost <==> code == -1 && message == "Unexpected EOF"
    ensures f != ConnectionLost ==> f == EngineFailure(code, message)
  {
    if code == -1 && message == "Unexpected EOF" then ConnectionLost else EngineFailure(code, message)
  }
}

=== FILE: reentry.dfy ===
/**
 * The read loop of the TLS session wrapper with an application that calls
 * back into the wrapper. `ProtocolWrapper.dataReceived` runs the
 * application protocol synchronously inside the loop of `_flushReceive`,
 * and the protocol may answer at once with `write` or `loseConnection` on
 * the same wrapper before the loop tests `_lostTLSConnection` again.
 */
module TlsReentry {
  import opened Base
  import opened TlsEngine
  import opened TlsSession
  import opened TlsSessionProofs

  /** A call the application protocol makes on the wrapper from inside its `dataReceived`. */
  datatype AppCall = CallWrite(data: Bytes) | CallClose

  /** The application's calls on the wrapper, in order; an exception ends them and leaves the loop. */
  function Nested(w: Wrapper, calls: seq<AppCall>, e: Oracle): (r: Step)
    requires Valid(e)
    ensures Later(w, r.w) && (Inv(w) ==> Inv(r.w))
    ensures |calls| == 0 ==> r == Step(w, [], None)
    ensures forall x :: x in r.out ==> !x.Delivered? && !x.AppConnectionLost?
    decreases |calls|
  {
    if |calls| == 0 then Step(w, [], None)
    else
      var s := match calls[0]
        case CallWrite(d) => Write(w, d, e)
        case CallClose => LoseConnection(w, e);
      if s.escaped.Some? then s
      else
        var t := Nested(s.w, calls[1..], e);
        Step(t.w, s.out + t.out, t.escaped)
  }

  /**
   * `_flushReceive` with a re-entrant application: after the i-th delivered
   * chunk the application makes the calls `reactions[i]` (none once the
   * list runs out), and only then does the loop test `_lostTLSConnection`
   * again. An exception from those calls leaves the loop and the handler.
   */
  function FlushReceiveIn(w: Wrapper, e: Oracle, reactions: seq<seq<AppCall>>): (r: Step)
    requires Valid(e)
    ensures Later(w, r.w) && (Inv(w) ==> Inv(r.w))
    ensures forall x :: x in r.out ==> !x.AppConnectionLost?
    // once the TLS connection is lost, nothing is read or delivered
    ensures w.lost ==> r.w == Tick(w) && forall x :: x in r.out ==> x.TransportWrite?
    decreases |reactions|, e.backlog(w.calls)
  {
    if w.lost then FlushSend(w, e)
    else
      var w1 := Tick(w);
      match e.recv(w.calls)
      case Data(b) =>
        var n := Nested(w1.(handshakeDone := true), if |reactions| > 0 then reactions[0] else [], e);
        if n.escaped.Some? then Step(n.w, [Delivered(b)] + n.out, n.escaped)
        else
          var t := FlushReceiveIn(n.w, e, if |reactions| > 0 then reactions[1..] else []);
          Step(t.w, [Delivered(b)] + n.out + t.out, t.escaped)
      case WouldBlock =>
        FlushSend(w1, e)
      case EndOfStream => ReadEnded(w1, e)
      case RecvError(c, m) => ReadFailed(w1, c, m, e)
  }

  /**
   * An application that never calls back leaves the loop exactly as
   * `FlushReceive` describes it, so every property proved of `FlushReceive`
   * holds for such an application.
   */
  lemma {:induction false} FlushReceiveInQuiet(w: Wrapper, e: Oracle, reactions: seq<seq<AppCall>>)
    requires Valid(e)
    requires forall i :: 0 <= i < |reactions| ==> reactions[i] == []
    ensures FlushReceiveIn(w, e, reactions) == FlushReceive(w, e)
    decreases |reactions|, e.backlog(w.calls)
  {
    if !w.lost && e.recv(w.calls).Data? {
      var w2 := Tick(w).(handshakeDone := true);
      var rest := if |reactions| > 0 then reactions[1..] else [];
      assert Nested(w2, if |reactions| > 0 then reactions[0] else [], e) == Step(w2, [], None);
      FlushReceiveInQuiet(w2, e, rest);
      assert [Delivered(e.recv(w.calls).bytes)] + [] == [Delivered(e.recv(w.calls).bytes)];
    }
  }

  /**
   * A call back that finishes the TLS connection (a `write` whose send
   * fails) ends the read loop: the chunk being handled is the last one
   * delivered, whatever the session still holds.
   */
  lemma ReentryStopsOnLoss(w: Wrapper, e: Oracle, reactions: seq<seq<AppCall>>)
    requires Valid(e) && !w.lost && e.recv(w.calls).Data? && |reactions| > 0
    ensures var n := Nested(Tick(w).(handshakeDone := true), reactions[0], e);
      var r := FlushReceiveIn(w, e, reactions);
      n.escaped.None? && n.w.lost ==>
        r.w.lost && Deliveries(r.out) == [e.recv(w.calls).bytes]
  {
    var n := Nested(Tick(w).(handshakeDone := true), reactions[0], e);
    if n.escaped.None? && n.w.lost {
      var t := FlushReceiveIn(n.w, e, reactions[1..]);
      var b := e.recv(w.calls).bytes;
      assert FlushReceiveIn(w, e, reactions).out == [Delivered(b)] + (n.out + t.out);
      DeliveriesNone(n.out + t.out);
      DeliveriesCons(b, n.out + t.out);
    }
  }

  /**
   * A session with two chunks ready, whose every `send` fails: the plain
   * loop delivers both, while an application that writes back after the
   * first chunk loses the TLS connection and never gets the second.
   */
  function Failing(): (e: Oracle)
    ensures Valid(e)
    ensures e.recv(0) == Data([0]) && e.recv(1) == Data([1])
    ensures forall k: nat, b: Bytes :: e.send(k, b) == SendError(1, "send failed")
  {
    Oracle((k: nat, b: Bytes) => SendError(1, "send failed"),
           (k: nat) => if k == 0 then Data([0]) else if k == 1 then Data([1]) else WouldBlock,
           (k: nat) => false,
           (k: nat) => HandshakeDone,
           (k: nat) => if k <= 1 then 2 - k else 0)
  }

  /** With `Failing`, a write back after the first chunk cuts the read short; the plain loop reads on. */
  lemma CallbackCutsRead()
    ensures Deliveries(FlushReceive(Fresh(), Failing()).out) == [[0], [1]]
    ensures var r := FlushReceiveIn(Fresh(), Failing(), [[CallWrite([7])]]);
      r.w.lost && Deliveries(r.out) == [[0]]
  {
    var e := Failing();
    FlushReceiveDelivers(Fresh(), e);
    assert RunData(e, 2) == [];
    assert RunData(e, 0) == [[0], [1]];
    FailingWriteLoses();
    ReentryStopsOnLoss(Fresh(), e, [[CallWrite([7])]]);
  }

  /** With `Failing`, the write back after the first chunk loses the TLS connection and raises nothing. */
  lemma FailingWriteLoses()
    ensures var n := Nested(Tick(Fresh()).(handshakeDone := true), [CallWrite([7])], Failing());
      n.w.lost && n.escaped.None?
  {
    var w2 := Tick(Fresh()).(handshakeDone := true);
    assert Write(w2, [7], Failing()) == ShutdownFinished(Tick(w2), Some(EngineFailure(1, "send failed")));
  }
}

=== FILE: replay_proofs.dfy ===
/**
 * The replay of the buffered writes in `dataReceived`, and what the
 * unblocking step as a whole keeps.
 *
 * `_write` does not look at `_writeBlockedOnRead`: after one chunk of the
 * old buffer is refused, the next chunk is offered to the session again.
 * So the bytes are always conserved (as a multiset), and they keep their
 * order exactly when the session, once it has asked to read, keeps
 * refusing sends until the replay is over (`SticksAfterBlock`).
 */
module TlsReplayProofs {
  import opened Base
  import opened TlsEngine
  import opened TlsSession
  import opened TlsSessionProofs

  /** The chunks appended to the buffer between two states. */
  function Added(before: Wrapper, after: Wrapper): seq<Bytes>
    requires |before.sendBuffer| <= |after.sendBuffer|
  {
    after.sendBuffer[|before.sendBuffer|..]
  }

  /** No send between engine calls `lo` and `hi` is accepted. */
  ghost predicate RefusesFrom(e: Oracle, lo: nat, hi: nat) {
    forall j: nat, c: Bytes :: lo <= j < hi ==> !e.send(j, c).Sent?
  }

  /**
   * Between engine calls `lo` and `hi`, once the session has answered a
   * send with "want read", it accepts no later send.
   */
  ghost predicate SticksAfterBlock(e: Oracle, lo: nat, hi: nat) {
    forall i: nat, b: Bytes :: lo <= i < hi && e.send(i, b).WantRead? ==> RefusesFrom(e, i + 1, hi)
  }

  lemma ConcatSingle(x: Bytes)
    ensures Concat([x]) == x
  {
    assert [x][..0] == [];
  }

  lemma ConcatCons(chunks: seq<Bytes>)
    requires |chunks| > 0
    ensures Concat(chunks) == chunks[0] + Concat(chunks[1..])
  {
    var x, rest := chunks[0], chunks[1..];
    assert chunks == [x] + rest;
    ConcatAppend([x], rest);
    ConcatSingle(x);
  }

  lemma SliceSplit<T>(a: seq<T>, b: seq<T>, c: seq<T>)
    requires |a| <= |b| <= |c| && b[..|a|] == a && c[..|b|] == b
    ensures c[|a|..] == b[|a|..] + c[|b|..]
  {
    assert forall k :: |a| <= k < |b| ==> c[k] == b[k];
  }

  /** One chunk of the replay, unfolded. */
  lemma ReplayStep(w: Wrapper, chunks: seq<Bytes>, e: Oracle)
    requires Valid(e) && |chunks| > 0
    ensures var s := WriteRaw(w, chunks[0], e);
      && (s.escaped.Some? ==> Replay(w, chunks, e) == s)
      && (s.escaped.None? ==>
            var t := Replay(s.w, chunks[1..], e);
            Replay(w, chunks, e) == Step(t.w, s.out + t.out, t.escaped))
  {
  }

  /** How the buffer and the accepted bytes of a replay split over its first chunk. */
  lemma ReplaySplit(w: Wrapper, chunks: seq<Bytes>, e: Oracle)
    requires Valid(e) && |chunks| > 0
    requires WriteRaw(w, chunks[0], e).escaped.None?
    ensures var s := WriteRaw(w, chunks[0], e);
      var t := Replay(s.w, chunks[1..], e);
      var r := Replay(w, chunks, e);
      && Accepted(r.out) == Accepted(s.out) + Accepted(t.out)
      && Concat(Added(w, r.w)) == Concat(Added(w, s.w)) + Concat(Added(s.w, t.w))
      && Concat(chunks) == chunks[0] + Concat(chunks[1..])
  {
    var s := WriteRaw(w, chunks[0], e);
    var t := Replay(s.w, chunks[1..], e);
    ReplayStep(w, chunks, e);
    AcceptedAppend(s.out, t.out);
    SliceSplit(w.sendBuffer, s.w.sendBuffer, t.w.sendBuffer);
    ConcatAppend(Added(w, s.w), Added(s.w, t.w));
    ConcatCons(chunks);
  }

  /**
   * No byte of the old buffer is lost or duplicated by the replay: unless
   * the TLS connection was lost or an exception escaped, what the session
   * accepted and what was buffered again are, together, the old buffer.
   */
  lemma {:induction false} ReplayConserves(w: Wrapper, chunks: seq<Bytes>, e: Oracle)
    requires Valid(e)
    ensures var r := Replay(w, chunks, e);
      r.escaped.None? && !r.w.lost ==>
        multiset(Accepted(r.out) + Concat(Added(w, r.w))) == multiset(Concat(chunks))
    decreases |chunks|
  {
    var r := Replay(w, chunks, e);
    if |chunks| == 0 {
      assert Added(w, r.w) == [];
    } else {
      var s := WriteRaw(w, chunks[0], e);
      if s.escaped.None? {
        var t := Replay(s.w, chunks[1..], e);
        ReplayStep(w, chunks, e);
        if !t.w.lost {
          SendLoopConserves(w, chunks[0], e);
          ReplayConserves(s.w, chunks[1..], e);
          ReplaySplit(w, chunks, e);
        }
      }
    }
  }

  /** A chunk whose first send is refused is buffered whole, unless the TLS connection is finished. */
  lemma WriteRawRefused(w: Wrapper, chunk: Bytes, e: Oracle)
    requires Valid(e)
    requires !w.lost && |chunk| > 0 ==> !e.send(w.calls, chunk).Sent?
    ensures var s := WriteRaw(w, chunk, e);
      && s.escaped.None? && Accepted(s.out) == []
      && (!s.w.lost ==> Concat(Added(w, s.w)) == chunk)
  {
    var s := WriteRaw(w, chunk, e);
    AcceptedNone(s.out);
    if !s.w.lost && |chunk| > 0 {
      assert Added(w, s.w) == [chunk];
      ConcatSingle(chunk);
    } else if !s.w.lost {
      assert Added(w, s.w) == [];
    }
  }

  /** The first chunk of a replay that no send is accepted in: refused whole, and the rest is refused too. */
  lemma ReplayAllBlockedHead(w: Wrapper, chunks: seq<Bytes>, e: Oracle)
    requires Valid(e) && |chunks| > 0
    requires RefusesFrom(e, w.calls, Replay(w, chunks, e).w.calls)
    ensures var s := WriteRaw(w, chunks[0], e);
      && s.escaped.None? && Accepted(s.out) == []
      && (!s.w.lost ==> Concat(Added(w, s.w)) == chunks[0])
      && RefusesFrom(e, s.w.calls, Replay(s.w, chunks[1..], e).w.calls)
  {
    var s := WriteRaw(w, chunks[0], e);
    ReplayStep(w, chunks, e);
    if !w.lost && |chunks[0]| > 0 {
      SendLoopCalls(w, chunks[0], e);
    }
    WriteRawRefused(w, chunks[0], e);
  }

  /** The replay after a refused first chunk, joined to it. */
  lemma ReplayAllBlockedStep(w: Wrapper, chunks: seq<Bytes>, e: Oracle)
    requires Valid(e) && |chunks| > 0
    requires var s := WriteRaw(w, chunks[0], e);
      && s.escaped.None? && Accepted(s.out) == []
      && (!s.w.lost ==> Concat(Added(w, s.w)) == chunks[0])
    requires var s := WriteRaw(w, chunks[0], e); var t := Replay(s.w, chunks[1..], e);
      && Accepted(t.out) == []
      && (t.escaped.None? && !t.w.lost ==> Concat(Added(s.w, t.w)) == Concat(chunks[1..]))
    ensures var r := Replay(w, chunks, e);
      && Accepted(r.out) == []
      && (r.escaped.None? && !r.w.lost ==> Concat(Added(w, r.w)) == Concat(chunks))
  {
    ReplayStep(w, chunks, e);
    ReplaySplit(w, chunks, e);
  }

  /** When the session accepts no send during a replay, the whole old buffer is buffered again, in order. */
  lemma {:induction false} ReplayAllBlocked(w: Wrapper, chunks: seq<Bytes>, e: Oracle)
    requires Valid(e)
    requires RefusesFrom(e, w.calls, Replay(w, chunks, e).w.calls)
    ensures var r := Replay(w, chunks, e);
      && Accepted(r.out) == []
      && (r.escaped.None? && !r.w.lost ==> Concat(Added(w, r.w)) == Concat(chunks))
    decreases |chunks|
  {
    if |chunks| == 0 {
      assert Added(w, Replay(w, chunks, e).w) == [];
    } else {
      ReplayAllBlockedHead(w, chunks, e);
      ReplayAllBlocked(WriteRaw(w, chunks[0], e).w, chunks[1..], e);
      ReplayAllBlockedStep(w, chunks, e);
    }
  }

  /** Putting the two halves of a replay back together. */
  lemma Regroup(a1: Bytes, b1: Bytes, a2: Bytes, b2: Bytes, first: Bytes, rest: Bytes)
    requires a1 + b1 == first
    requires (a2 == [] && b2 == rest) || (b1 == [] && a2 + b2 == rest)
    ensures (a1 + a2) + (b1 + b2) == first + rest
  {
    if a2 == [] && b2 == rest {
      assert (a1 + a2) + (b1 + b2) == (a1 + b1) + b2;
    } else {
      assert (a1 + a2) + (b1 + b2) == a1 + (a2 + b2);
    }
  }

  /** The first chunk of a replay that kept the TLS connection: its bytes are conserved, and the halves add up. */
  lemma ReplayHalves(w: Wrapper, chunks: seq<Bytes>, e: Oracle)
    requires Valid(e) && |chunks| > 0
    requires var s := WriteRaw(w, chunks[0], e); var t := Replay(s.w, chunks[1..], e);
      s.escaped.None? && t.escaped.None? && !t.w.lost
    ensures var s := WriteRaw(w, chunks[0], e); var t := Replay(s.w, chunks[1..], e);
      var r := Replay(w, chunks, e);
      && r.escaped.None? && !r.w.lost
      && Accepted(s.out) + Concat(Added(w, s.w)) == chunks[0]
      && Accepted(r.out) + Concat(Added(w, r.w))
           == (Accepted(s.out) + Accepted(t.out)) + (Concat(Added(w, s.w)) + Concat(Added(s.w, t.w)))
      && Concat(chunks) == chunks[0] + Concat(chunks[1..])
  {
    ReplayStep(w, chunks, e);
    SendLoopConserves(w, chunks[0], e);
    ReplaySplit(w, chunks, e);
  }

  lemma SticksNarrow(e: Oracle, lo: nat, hi: nat, lo2: nat, hi2: nat)
    requires SticksAfterBlock(e, lo, hi) && lo <= lo2 && hi2 <= hi
    ensures SticksAfterBlock(e, lo2, hi2)
  {
  }

  /** After a refused send inside a sticky window, no later send in the window is accepted. */
  lemma SticksRefuses(e: Oracle, lo: nat, hi: nat, k: nat, b: Bytes)
    requires SticksAfterBlock(e, lo, hi) && lo <= k && e.send(k, b).WantRead?
    ensures RefusesFrom(e, k + 1, hi)
  {
  }

  /** A chunk that `_write` buffered was refused by the session's last send, asking to read. */
  lemma WriteRawBuffered(w: Wrapper, chunk: Bytes, e: Oracle)
    requires Valid(e) && |WriteRaw(w, chunk, e).w.sendBuffer| > |w.sendBuffer|
    ensures var s := WriteRaw(w, chunk, e);
      && !w.lost && w.calls < s.w.calls
      && e.send(s.w.calls - 1, s.w.sendBuffer[|w.sendBuffer|]).WantRead?
  {
  }

  /**
   * The rest of a replay after the session refused a send at call `k`
   * (inside a sticky window): nothing more is accepted and the rest is
   * buffered whole.
   */
  lemma ReplayFifoAfterBlock(s: Wrapper, rest: seq<Bytes>, e: Oracle, lo: nat, k: nat, b: Bytes)
    requires Valid(e) && lo <= k < s.calls && e.send(k, b).WantRead?
    requires SticksAfterBlock(e, lo, Replay(s, rest, e).w.calls)
    ensures var t := Replay(s, rest, e);
      && Accepted(t.out) == []
      && (t.escaped.None? && !t.w.lost ==> Concat(Added(s, t.w)) == Concat(rest))
  {
    SticksRefuses(e, lo, Replay(s, rest, e).w.calls, k, b);
    ReplayAllBlocked(s, rest, e);
  }

  /** What the two halves of a replay put back together say about the whole. */
  lemma ReplayJoin(w: Wrapper, chunks: seq<Bytes>, e: Oracle, a1: Bytes, b1: Bytes, a2: Bytes, b2: Bytes)
    requires Valid(e) && |chunks| > 0
    requires var s := WriteRaw(w, chunks[0], e); var t := Replay(s.w, chunks[1..], e);
      && s.escaped.None? && t.escaped.None? && !t.w.lost
      && a1 == Accepted(s.out) && b1 == Concat(Added(w, s.w))
      && a2 == Accepted(t.out) && b2 == Concat(Added(s.w, t.w))
    requires (a2 == [] && b2 == Concat(chunks[1..])) || (b1 == [] && a2 + b2 == Concat(chunks[1..]))
    ensures var r := Replay(w, chunks, e);
      r.escaped.None? && !r.w.lost && Accepted(r.out) + Concat(Added(w, r.w)) == Concat(chunks)
  {
    ReplayHalves(w, chunks, e);
    Regroup(a1, b1, a2, b2, chunks[0], Concat(chunks[1..]));
  }

  lemma ReplayRestBlocked(w: Wrapper, chunks: seq<Bytes>, e: Oracle)
    requires Valid(e) && |chunks| > 0
    requires var s := WriteRaw(w, chunks[0], e); var t := Replay(s.w, chunks[1..], e);
      && s.escaped.None? && t.escaped.None? && !t.w.lost
      && SticksAfterBlock(e, w.calls, t.w.calls)
      && |s.w.sendBuffer| > |w.sendBuffer|
    ensures var s := WriteRaw(w, chunks[0], e); var t := Replay(s.w, chunks[1..], e);
      Accepted(t.out) == [] && Concat(Added(s.w, t.w)) == Concat(chunks[1..])
  {
    var s := WriteRaw(w, chunks[0], e);
    WriteRawBuffered(w, chunks[0], e);
    ReplayFifoAfterBlock(s.w, chunks[1..], e, w.calls, s.w.calls - 1, s.w.sendBuffer[|w.sendBuffer|]);
  }

  /**
   * One chunk of an order-keeping replay, when the session refused part of
   * it: the rest of the replay is buffered whole, so the whole keeps order.
   */
  lemma ReplayFifoStepBlocked(w: Wrapper, chunks: seq<Bytes>, e: Oracle)
    requires Valid(e) && |chunks| > 0
    requires var s := WriteRaw(w, chunks[0], e); var t := Replay(s.w, chunks[1..], e);
      && s.escaped.None? && t.escaped.None? && !t.w.lost
      && SticksAfterBlock(e, w.calls, t.w.calls)
      && |s.w.sendBuffer| > |w.sendBuffer|
    ensures var r := Replay(w, chunks, e);
      r.escaped.None? && !r.w.lost && Accepted(r.out) + Concat(Added(w, r.w)) == Concat(chunks)
  {
    var s := WriteRaw(w, chunks[0], e);
    var t := Replay(s.w, chunks[1..], e);
    ReplayRestBlocked(w, chunks, e);
    ReplayJoin(w, chunks, e, Accepted(s.out), Concat(Added(w, s.w)), Accepted(t.out), Concat(Added(s.w, t.w)));
  }

  /**
   * One chunk of an order-keeping replay, when the session took all of it:
   * if the rest keeps order, so does the whole.
   */
  lemma ReplayFifoStepThrough(w: Wrapper, chunks: seq<Bytes>, e: Oracle)
    requires Valid(e) && |chunks| > 0
    requires var s := WriteRaw(w, chunks[0], e); var t := Replay(s.w, chunks[1..], e);
      && s.escaped.None? && t.escaped.None? && !t.w.lost
      && |s.w.sendBuffer| == |w.sendBuffer|
      && Accepted(t.out) + Concat(Added(s.w, t.w)) == Concat(chunks[1..])
    ensures var r := Replay(w, chunks, e);
      r.escaped.None? && !r.w.lost && Accepted(r.out) + Concat(Added(w, r.w)) == Concat(chunks)
  {
    var s := WriteRaw(w, chunks[0], e);
    var t := Replay(s.w, chunks[1..], e);
    assert Added(w, s.w) == [];
    ReplayJoin(w, chunks, e, Accepted(s.out), Concat(Added(w, s.w)), Accepted(t.out), Concat(Added(s.w, t.w)));
  }

  /**
   * If the session keeps refusing sends once it has asked to read, the
   * replay keeps the order of the bytes: what it accepted, then what it
   * buffered again, is the old buffer.
   */
  lemma {:induction false} ReplayFifo(w: Wrapper, chunks: seq<Bytes>, e: Oracle)
    requires Valid(e) && SticksAfterBlock(e, w.calls, Replay(w, chunks, e).w.calls)
    ensures var r := Replay(w, chunks, e);
      r.escaped.None? && !r.w.lost ==> Accepted(r.out) + Concat(Added(w, r.w)) == Concat(chunks)
    decreases |chunks|
  {
    var r := Replay(w, chunks, e);
    if |chunks| == 0 {
      assert Added(w, r.w) == [];
    } else {
      var s := WriteRaw(w, chunks[0], e);
      ReplayStep(w, chunks, e);
      if s.escaped.None? {
        var t := Replay(s.w, chunks[1..], e);
        if t.escaped.None? && !t.w.lost {
          if |s.w.sendBuffer| == |w.sendBuffer| {
            SticksNarrow(e, w.calls, r.w.calls, s.w.calls, t.w.calls);
            ReplayFifo(s.w, chunks[1..], e);
            ReplayFifoStepThrough(w, chunks, e);
          } else {
            ReplayFifoStepBlocked(w, chunks, e);
          }
        }
      }
    }
  }

  /**
   * A session that refuses the first send with "want read" and accepts
   * every later one: valid, but not sticky.
   */
  function Overtaking(): (e: Oracle)
    ensures Valid(e)
    ensures forall k: nat, b: Bytes :: e.send(k, b) == if k == 0 then WantRead else Sent(|b|)
    ensures forall k: nat :: e.recv(k) == WouldBlock
    ensures !SticksAfterBlock(e, 0, 2)
  {
    var e := Oracle((k: nat, b: Bytes) => if k == 0 then WantRead else Sent(|b|),
                    (k: nat) => WouldBlock, (k: nat) => false, (k: nat) => HandshakeDone, (k: nat) => 0);
    assert e.send(0, [1]).WantRead?;
    assert !RefusesFrom(e, 1, 2) by {
      assert e.send(1, [2]).Sent?;
    }
    e
  }

  /** The overtaking session refuses the first chunk: it is buffered again whole. */
  lemma OvertakingRefuses(w: Wrapper, chunk: Bytes)
    requires w.calls == 0 && !w.lost && w.producer.None? && |chunk| > 0
    ensures var s := WriteRaw(w, chunk, Overtaking());
      && s.escaped.None? && s.out == [] && !s.w.lost
      && s.w.calls == 1 && s.w.sendBuffer == w.sendBuffer + [chunk]
  {
    assert Overtaking().send(0, chunk) == WantRead;
  }

  /** The overtaking session takes any later chunk whole. */
  lemma OvertakingAccepts(w: Wrapper, chunk: Bytes)
    requires w.calls > 0 && !w.lost && |chunk| > 0
    ensures var t := WriteRaw(w, chunk, Overtaking());
      && t.escaped.None? && t.out == [Encrypted(chunk)] && !t.w.lost
      && t.w.sendBuffer == w.sendBuffer
  {
    var e := Overtaking();
    assert e.send(w.calls, chunk) == Sent(|chunk|);
    SendLoopSentUnfold(w, chunk, e);
    var f := FlushSend(Tick(w).(handshakeDone := true), e);
    assert f.out == [] && f.escaped.None?;
    assert chunk[..|chunk|] == chunk && chunk[|chunk|..] == [];
    assert SendLoop(f.w, [], e) == Step(f.w, [], None);
  }

  /** A replay of two chunks in which no exception escapes is the two writes in a row. */
  lemma ReplayTwo(w: Wrapper, a: Bytes, b: Bytes, e: Oracle)
    requires Valid(e)
    requires WriteRaw(w, a, e).escaped.None? && WriteRaw(WriteRaw(w, a, e).w, b, e).escaped.None?
    ensures var s := WriteRaw(w, a, e); var t := WriteRaw(s.w, b, e);
      Replay(w, [a, b], e) == Step(t.w, s.out + t.out, None)
  {
    var s := WriteRaw(w, a, e);
    var t := WriteRaw(s.w, b, e);
    ReplayStep(w, [a, b], e);
    assert [a, b][1..] == [b];
    ReplayStep(s.w, [b], e);
    assert [b][1..] == [];
    assert Replay(t.w, [], e) == Step(t.w, [], None);
    assert t.out + [] == t.out;
  }

  /**
   * Without stickiness the replay can reorder: the first chunk is refused
   * and buffered again, the second is accepted, so the second chunk's bytes
   * reach the session while the first's are still waiting.
   */
  lemma ReplayCanReorder()
    ensures var r := Replay(Cleared(Fresh()), [[1], [2]], Overtaking());
      && r.escaped.None? && !r.w.lost
      && Accepted(r.out) == [2] && r.w.sendBuffer == [[1]]
  {
    var e := Overtaking();
    var w := Cleared(Fresh());
    var one: Bytes := [1];
    var two: Bytes := [2];
    OvertakingRefuses(w, one);
    OvertakingAccepts(WriteRaw(w, one, e).w, two);
    ReplayTwo(w, one, two, e);
    AcceptedSingle(two);
  }

  /**
   * `write` while writes are blocked, with a session that has asked to read
   * at call `kb` and keeps refusing since: nothing is accepted and the new
   * bytes go whole to the end of the buffer, behind the chunks waiting there.
   */
  lemma WriteWhileBlocked(w: Wrapper, data: Bytes, e: Oracle, kb: nat, b: Bytes)
    requires Valid(e) && kb < w.calls && e.send(kb, b).WantRead? && SticksAfterBlock(e, kb, w.calls + 1)
    requires !(w.disconnecting && w.producer.None?) && |data| > 0
    ensures var r := Write(w, data, e);
      && r.escaped.None? && Accepted(r.out) == []
      && (!r.w.lost ==> r.w.writeBlocked && r.w.sendBuffer == w.sendBuffer + [data])
  {
    SticksRefuses(e, kb, w.calls + 1, kb, b);
    assert !e.send(w.calls, data).Sent?;
    WriteRawRefused(w, data, e);
  }

  /**
   * Without stickiness a `write` during a block can overtake the buffer:
   * the first write is refused and buffered, the second is accepted while
   * the first still waits.
   */
  lemma WriteCanOvertake()
    ensures var e := Overtaking(); var s := Write(Fresh(), [1], e); var t := Write(s.w, [2], e);
      && s.escaped.None? && s.w.writeBlocked && s.w.sendBuffer == [[1]] && Accepted(s.out) == []
      && t.escaped.None? && Accepted(t.out) == [2] && t.w.sendBuffer == [[1]]
  {
    var e := Overtaking();
    var one: Bytes := [1];
    var two: Bytes := [2];
    OvertakingRefuses(Fresh(), one);
    var s := Write(Fresh(), one, e);
    OvertakingAccepts(s.w, two);
    AcceptedSingle(two);
    assert Accepted(s.out) == [];
  }

  /** The wrapper as the unblocking step starts its replay: flag cleared, buffer swapped for an empty one. */
  function Cleared(w: Wrapper): Wrapper {
    w.(writeBlocked := false, sendBuffer := [])
  }

  /**
   * The unblocking step, split into its replay and what follows it: the
   * deferred shutdown (only if nothing blocks it any more, the wrapper is
   * disconnecting and has no producer) and resuming the producer.
   */
  lemma UnblockParts(w: Wrapper, e: Oracle)
    requires Valid(e) && w.writeBlocked
    ensures var rp := Replay(Cleared(w), w.sendBuffer, e); var r := Unblock(w, e);
      r.escaped.None? ==>
        && rp.escaped.None?
        && |rp.out| <= |r.out| && r.out[..|rp.out|] == rp.out
        && (forall x :: x in r.out[|rp.out|..] ==> !x.Encrypted?)
        && r.w.sendBuffer == rp.w.sendBuffer && r.w.lost == rp.w.lost
        && r.w.writeBlocked == rp.w.writeBlocked
        && (ByeSent in r.out[|rp.out|..] <==> !rp.w.writeBlocked && w.disconnecting && w.producer.None?)
        && (w.producer.Some? ==> |r.out| > 0 && r.out[|r.out| - 1] == ResumeProducing(w.producer.value))
  {
    var rp := Replay(Cleared(w), w.sendBuffer, e);
    var r := Unblock(w, e);
    if rp.escaped.None? {
      var f := AfterReplay(rp.w, e);
      assert r.out == rp.out + f.out;
      assert r.out[|rp.out|..] == f.out;
    }
  }

  /**
   * No byte of the blocked writes is lost or duplicated when they are
   * retried: unless the TLS connection was lost or an exception escaped,
   * what the session accepted and the new buffer are, together, the old
   * buffer.
   */
  lemma UnblockConserves(w: Wrapper, e: Oracle)
    requires Valid(e) && w.writeBlocked
    ensures var r := Unblock(w, e);
      r.escaped.None? && !r.w.lost ==>
        multiset(Accepted(r.out) + Concat(r.w.sendBuffer)) == multiset(Concat(w.sendBuffer))
  {
    var rp := Replay(Cleared(w), w.sendBuffer, e);
    var r := Unblock(w, e);
    UnblockParts(w, e);
    ReplayConserves(Cleared(w), w.sendBuffer, e);
    if r.escaped.None? {
      UnblockAccepted(r.out, rp.out);
      assert Added(Cleared(w), rp.w) == rp.w.sendBuffer;
    }
  }

  /** With a session that keeps refusing once it asked to read, the retried writes also keep their order. */
  lemma UnblockFifo(w: Wrapper, e: Oracle)
    requires Valid(e) && w.writeBlocked
    requires SticksAfterBlock(e, w.calls, Replay(Cleared(w), w.sendBuffer, e).w.calls)
    ensures var r := Unblock(w, e);
      r.escaped.None? && !r.w.lost ==> Accepted(r.out) + Concat(r.w.sendBuffer) == Concat(w.sendBuffer)
  {
    var rp := Replay(Cleared(w), w.sendBuffer, e);
    var r := Unblock(w, e);
    UnblockParts(w, e);
    ReplayFifo(Cleared(w), w.sendBuffer, e);
    if r.escaped.None? {
      UnblockAccepted(r.out, rp.out);
      assert Added(Cleared(w), rp.w) == rp.w.sendBuffer;
    }
  }

  lemma UnblockAccepted(out: seq<Effect>, head: seq<Effect>)
    requires |head| <= |out| && out[..|head|] == head
    requires forall x :: x in out[|head|..] ==> !x.Encrypted?
    ensures Accepted(out) == Accepted(head)
  {
    AcceptedNone(out[|head|..]);
    AcceptedAppend(head, out[|head|..]);
    assert head + out[|head|..] == out;
  }

  /**
   * The deferred shutdown: after the retried writes, `bye` is said exactly
   * when nothing is blocked any more, the wrapper is disconnecting and no
   * producer is registered; a registered producer is then resumed.
   */
  lemma UnblockShutdown(w: Wrapper, e: Oracle)
    requires Valid(e) && w.writeBlocked
    ensures var r := Unblock(w, e);
      r.escaped.None? ==>
        && (ByeSent in r.out <==> !r.w.writeBlocked && w.disconnecting && w.producer.None?)
        && (w.producer.Some? ==> |r.out| > 0 && r.out[|r.out| - 1] == ResumeProducing(w.producer.value))
  {
    var rp := Replay(Cleared(w), w.sendBuffer, e);
    var r := Unblock(w, e);
    UnblockParts(w, e);
    if r.escaped.None? {
      assert r.out == rp.out + r.out[|rp.out|..];
      assert !WriteEffect(ByeSent);
    }
  }
}

=== FILE: router.dfy ===
/**
 * The XMPP router component: a table from host names (and `None`, the
 * default route) to the component streams that serve them, and the
 * decisions `route`, `broadcast`, `addRoute` and `removeRoute` take on it.
 *
 * A stanza is a record whose `to`/`from` attributes are absent, set to
 * Python `None`, or set to a string. JID parsing is the parameter `hostOf`:
 * the host part of a JID string, or `None` when `jid.JID` rejects it.
 * Every send is a `Send` to a stream; since the table is a Python dict, the
 * sends of one broadcast form a set.
 */
module XmppRouter {
  import opened Base

  /** An XML attribute: not set, set to Python `None`, or set to a string. */
  datatype Attr = Absent | Null | Text(value: string)

  /** A stanza; `uri` is the element's namespace, "" for none. */
  datatype Stanza = Stanza(name: string, uri: string, from: Attr, to: Attr, kind: Attr, children: seq<Stanza>)

  /** A component stream, by identity. */
  type StreamId = nat

  /** `Router.routes`: host name (or `None` for the default route) to stream. */
  type Routes = map<Option<string>, StreamId>

  /** A stanza handed to a stream's `send`. */
  datatype Send = Send(stream: StreamId, stanza: Stanza)

  /** The exception that escapes a router operation. */
  datatype Fault =
    | MissingAttribute(attr: string)         // KeyError reading `stanza['from']`
    | JidRequired                            // `jid.JID(None)`
    | BadJid(text: string)                   // `jid.JID` rejects the string

  /** `component.NS_COMPONENT_ACCEPT`. */
  const ComponentAccept: string := "jabber:component:accept"

  /** The attribute value a host key is written as. */
  function AttrOf(host: Option<string>): (a: Attr)
    ensures a != Absent
    ensures host.Some? <==> a.Text?
    ensures host.Some? ==> a.value == host.value
  {
    if host.Some? then Text(host.value) else Null
  }

  /** A presence stanza from `from`, as wokkel's `Presence()` (available) or `UnavailablePresence()`. */
  function Presence(from: Attr, available: bool): (s: Stanza)
    ensures s.name == "presence" && s.from == from && s.to == Absent && s.children == []
    ensures available <==> s.kind == Absent
  {
    Stanza("presence", "", from, Absent, if available then Absent else Text("unavailable"), [])
  }

  /** The host of the JID in an attribute, or why `jid.JID` raised. */
  function HostOf(a: Attr, hostOf: string -> Option<string>): (r: Result<string, Fault>)
    ensures a.Absent? ==> r == Err(MissingAttribute("from"))
    ensures a.Null? ==> r == Err(JidRequired)
    ensures a.Text? && hostOf(a.value).None? ==> r == Err(BadJid(a.value))
    ensures a.Text? && hostOf(a.value).Some? ==> r == Ok(hostOf(a.value).value)
  {
    match a
    case Absent => Err(MissingAttribute("from"))
    case Null => Err(JidRequired)
    case Text(s) => if hostOf(s).Some? then Ok(hostOf(s).value) else Err(BadJid(s))
  }

  /** The hosts a broadcast from host `sender` reaches. */
  function Recipients(routes: Routes, sender: string, same: bool): (hosts: set<Option<string>>)
    ensures forall k :: k in hosts <==> k in routes && (same || k != Some(sender))
  {
    set k | k in routes && (same || k != Some(sender))
  }

  /** The host key an attribute written by `AttrOf` stands for. */
  function HostKey(a: Attr): Option<string>
  {
    if a.Text? then Some(a.value) else None
  }

  /**
   * `broadcast`: one copy of the stanza to every route whose host is not
   * the sender's (to every route when `same`), addressed to that host.
   * Which copies exactly is the lemma `BroadcastReaches`.
   */
  function Broadcast(routes: Routes, stanza: Stanza, same: bool, hostOf: string -> Option<string>): (r: Result<set<Send>, Fault>)
    ensures HostOf(stanza.from, hostOf).Err? <==> r.Err?
    ensures r.Err? ==> r.error == HostOf(stanza.from, hostOf).error
    // every copy is the stanza addressed to a recipient host and sent on that host's stream
    ensures r.Ok? ==> forall d :: d in r.value ==>
      && d.stanza.to != Absent && d.stanza.(to := stanza.to) == stanza
      && HostKey(d.stanza.to) in Recipients(routes, HostOf(stanza.from, hostOf).value, same)
      && d.stream == routes[HostKey(d.stanza.to)]
  {
    match HostOf(stanza.from, hostOf)
    case Err(f) => Err(f)
    case Ok(sender) =>
      Ok(set k | k in Recipients(routes, sender, same) :: Send(routes[k], stanza.(to := AttrOf(k))))
  }

  /** The error element sent back for an unroutable stanza. */
  function Bounce(stanza: Stanza): (b: Stanza)
    ensures b.name == "error" && b.kind == Text("unroutable")
    ensures b.to == stanza.from && b.children == [stanza]
  {
    Stanza("error", "", Absent, stanza.from, Text("unroutable"), [stanza])
  }

  /**
   * `route`, for a stanza that arrived on stream `origin`: reset its
   * namespace; with no `to`, broadcast it; otherwise send it to its host's
   * route, else to the default route, else bounce an error to `origin`.
   */
  function Route(routes: Routes, stanza: Stanza, origin: StreamId, hostOf: string -> Option<string>): (r: Result<set<Send>, Fault>)
    ensures stanza.to.Absent? ==> r == Broadcast(routes, stanza.(uri := ComponentAccept), false, hostOf)
    ensures stanza.to.Null? ==> r == Err(JidRequired)
    ensures stanza.to.Text? && hostOf(stanza.to.value).None? ==> r == Err(BadJid(stanza.to.value))
  {
    var s := stanza.(uri := ComponentAccept);
    match stanza.to
    case Absent => Broadcast(routes, s, false, hostOf)
    case Null => Err(JidRequired)
    case Text(t) =>
      match hostOf(t)
      case None => Err(BadJid(t))
      case Some(h) =>
        if Some(h) in routes then Ok({Send(routes[Some(h)], s)})
        else if None in routes then Ok({Send(routes[None], s)})
        else if s.from.Absent? then Err(MissingAttribute("from"))
        else Ok({Send(origin, Bounce(s))})
  }

  /** The table and the sends of `addRoute`. */
  datatype Added = Added(routes: Routes, announced: set<Send>, introduced: set<Send>)

  /**
   * `addRoute`: announce the destination to the routes already there, send
   * the new stream one presence per host already there, then install the
   * route.
   */
  function AddRoute(routes: Routes, destination: Option<string>, xs: StreamId, hostOf: string -> Option<string>): (r: Result<Added, Fault>)
    ensures r.Err? <==> Broadcast(routes, Presence(AttrOf(destination), true), false, hostOf).Err?
    ensures r.Ok? ==> r.value.routes == routes[destination := xs]
  {
    match Broadcast(routes, Presence(AttrOf(destination), true), false, hostOf)
    case Err(f) => Err(f)
    case Ok(announced) =>
      var introduced := set k | k in routes :: Send(xs, Presence(AttrOf(k), true));
      Ok(Added(routes[destination := xs], announced, introduced))
  }

  /** The table, the sends and the escaping exception of `removeRoute`. */
  datatype Removed = Removed(routes: Routes, announced: set<Send>, escaped: Option<Fault>)

  /**
   * `removeRoute`: drop the destination's route, then tell the remaining
   * routes it is unavailable. The table is changed even when the
   * announcement raises.
   */
  function RemoveRoute(routes: Routes, destination: Option<string>, hostOf: string -> Option<string>): (r: Removed)
    ensures r.routes.Keys == routes.Keys - {destination}
    ensures forall k :: k in r.routes ==> r.routes[k] == routes[k]
    ensures r.escaped.Some? <==> destination.None? || hostOf(destination.value).None?
    ensures r.escaped.Some? ==> r.announced == {}
  {
    var left := routes - {destination};
    match Broadcast(left, Presence(AttrOf(destination), false), false, hostOf)
    case Err(f) => Removed(left, {}, Some(f))
    case Ok(announced) => Removed(left, announced, None)
  }
}

=== FILE: router_proofs.dfy ===
/**
 * What the router's decisions guarantee: where an addressed stanza goes,
 * who a broadcast reaches, and how `addRoute` and `removeRoute` change
 * later routing.
 */
module XmppRouterProofs {
  import opened Base
  import opened XmppRouter

  /** `HostKey` reads back the host `AttrOf` wrote. */
  lemma HostKeyOfAttr(host: Option<string>)
    ensures HostKey(AttrOf(host)) == host
  {
  }

  /** The stream that serves `host`: its own route, else the default route. */
  function ServedBy(routes: Routes, host: string): (s: Option<StreamId>)
    ensures s.Some? <==> Some(host) in routes || None in routes
  {
    if Some(host) in routes then Some(routes[Some(host)])
    else if None in routes then Some(routes[None])
    else None
  }

  /**
   * An addressed stanza whose host parses is sent once, with its namespace
   * reset, to the stream that serves its host; when no stream does, an
   * `unroutable` error carrying it goes back to the stream it came from
   * (which needs its `from`).
   */
  lemma RouteAddressed(routes: Routes, stanza: Stanza, origin: StreamId, hostOf: string -> Option<string>)
    requires stanza.to.Text? && hostOf(stanza.to.value).Some?
    ensures var r := Route(routes, stanza, origin, hostOf);
      var h := hostOf(stanza.to.value).value;
      var s := stanza.(uri := ComponentAccept);
      && (ServedBy(routes, h).Some? ==> r == Ok({Send(ServedBy(routes, h).value, s)}))
      && (ServedBy(routes, h).None? && !stanza.from.Absent? ==>
            r == Ok({Send(origin, Bounce(s))}) && Bounce(s).to == stanza.from)
      && (ServedBy(routes, h).None? && stanza.from.Absent? ==> r == Err(MissingAttribute("from")))
  {
  }

  /**
   * A route is used only for its own host or, as the default route, for
   * hosts without one: an addressed stanza never reaches a stream through
   * another host's route.
   */
  lemma RouteOnlyToItsHost(routes: Routes, stanza: Stanza, origin: StreamId, hostOf: string -> Option<string>, k: string)
    requires stanza.to.Text? && hostOf(stanza.to.value).Some?
    requires Some(k) in routes && k != hostOf(stanza.to.value).value
    requires forall j :: j in routes && j != Some(k) ==> routes[j] != routes[Some(k)]
    requires origin != routes[Some(k)]
    ensures var r := Route(routes, stanza, origin, hostOf);
      r.Ok? ==> forall d :: d in r.value ==> d.stream != routes[Some(k)]
  {
  }

  /**
   * A broadcast reaches the route of host `k` exactly when `k` is not the
   * sender's host (or `same` is set), with a copy addressed to `k`.
   */
  lemma BroadcastReaches(routes: Routes, stanza: Stanza, same: bool, hostOf: string -> Option<string>, k: Option<string>)
    requires HostOf(stanza.from, hostOf).Ok? && k in routes
    ensures var r := Broadcast(routes, stanza, same, hostOf); var sender := HostOf(stanza.from, hostOf).value;
      Send(routes[k], stanza.(to := AttrOf(k))) in r.value <==> same || k != Some(sender)
  {
    var sender := HostOf(stanza.from, hostOf).value;
    if same || k != Some(sender) {
      assert k in Recipients(routes, sender, same);
    }
    HostKeyOfAttr(k);
  }

  /** A broadcast sends one copy per host: two copies with the same address are the same copy. */
  lemma BroadcastOneCopyPerHost(routes: Routes, stanza: Stanza, same: bool, hostOf: string -> Option<string>)
    ensures var r := Broadcast(routes, stanza, same, hostOf);
      r.Ok? ==> forall d1, d2 :: d1 in r.value && d2 in r.value && d1.stanza.to == d2.stanza.to ==> d1 == d2
  {
  }

  /** A stanza without `to` is broadcast to the others and never bounced or sent to its sender's route. */
  lemma RouteUnaddressed(routes: Routes, stanza: Stanza, origin: StreamId, hostOf: string -> Option<string>)
    requires stanza.to.Absent?
    ensures var r := Route(routes, stanza, origin, hostOf);
      && (r.Err? <==> HostOf(stanza.from, hostOf).Err?)
      && (r.Ok? ==> forall d :: d in r.value ==>
            && d.stanza.name == stanza.name && d.stanza.to != Absent
            && HostKey(d.stanza.to) in routes
            && HostKey(d.stanza.to) != Some(HostOf(stanza.from, hostOf).value))
  {
  }

  /**
   * `addRoute` announces the destination to every route already there
   * except the destination's own host, and introduces every host already
   * there to the new stream, once each.
   */
  lemma AddRouteAnnounces(routes: Routes, d: string, xs: StreamId, hostOf: string -> Option<string>)
    requires hostOf(d).Some?
    ensures var r := AddRoute(routes, Some(d), xs, hostOf);
      && r.Ok?
      && (forall k :: k in routes ==>
            (Send(routes[k], Presence(Text(d), true).(to := AttrOf(k))) in r.value.announced <==> k != Some(hostOf(d).value)))
      && (forall k :: Send(xs, Presence(AttrOf(k), true)) in r.value.introduced <==> k in routes)
      && (forall x :: x in r.value.introduced ==> x.stream == xs)
  {
    var r := AddRoute(routes, Some(d), xs, hostOf);
    forall k | k in routes
      ensures Send(routes[k], Presence(Text(d), true).(to := AttrOf(k))) in r.value.announced <==> k != Some(hostOf(d).value)
    {
      BroadcastReaches(routes, Presence(Text(d), true), false, hostOf, k);
    }
    forall k
      ensures Send(xs, Presence(AttrOf(k), true)) in r.value.introduced <==> k in routes
    {
      if Send(xs, Presence(AttrOf(k), true)) in r.value.introduced {
        HostKeyOfAttr(k);
      }
    }
  }

  /** The new stream is not sent its own announcement unless it already served another host. */
  lemma AddRouteNotToSelf(routes: Routes, destination: Option<string>, xs: StreamId, hostOf: string -> Option<string>)
    requires forall k :: k in routes ==> routes[k] != xs
    ensures var r := AddRoute(routes, destination, xs, hostOf);
      r.Ok? ==> forall x :: x in r.value.announced ==> x.stream != xs
  {
  }

  /** After `addRoute`, a stanza addressed to the new host goes to the new stream only. */
  lemma AddThenRoute(routes: Routes, d: string, xs: StreamId, stanza: Stanza, origin: StreamId, hostOf: string -> Option<string>)
    requires hostOf(d).Some? && stanza.to.Text? && hostOf(stanza.to.value) == Some(d)
    ensures var a := AddRoute(routes, Some(d), xs, hostOf);
      a.Ok? && Route(a.value.routes, stanza, origin, hostOf) == Ok({Send(xs, stanza.(uri := ComponentAccept))})
  {
    var a := AddRoute(routes, Some(d), xs, hostOf);
    RouteAddressed(a.value.routes, stanza, origin, hostOf);
  }

  /** `addRoute` for the default route raises before anything is sent or changed. */
  lemma AddDefaultRouteRaises(routes: Routes, xs: StreamId, hostOf: string -> Option<string>)
    ensures AddRoute(routes, None, xs, hostOf) == Err(JidRequired)
  {
  }

  /**
   * `removeRoute` tells every remaining route that the destination is
   * unavailable, except the route of the destination's own host, once each.
   */
  lemma RemoveRouteAnnounces(routes: Routes, d: string, hostOf: string -> Option<string>)
    requires hostOf(d).Some?
    ensures var m := RemoveRoute(routes, Some(d), hostOf);
      && m.escaped.None?
      && (forall k :: k in m.routes ==>
            (Send(m.routes[k], Presence(Text(d), false).(to := AttrOf(k))) in m.announced <==> k != Some(hostOf(d).value)))
  {
    var m := RemoveRoute(routes, Some(d), hostOf);
    forall k | k in m.routes
      ensures Send(m.routes[k], Presence(Text(d), false).(to := AttrOf(k))) in m.announced <==> k != Some(hostOf(d).value)
    {
      BroadcastReaches(m.routes, Presence(Text(d), false), false, hostOf, k);
    }
  }

  /**
   * After `removeRoute`, a stanza addressed to the removed host falls back
   * to the default route, or bounces when there is none; the announcement
   * goes to the remaining routes only.
   */
  lemma RemoveThenRoute(routes: Routes, d: string, stanza: Stanza, origin: StreamId, hostOf: string -> Option<string>)
    requires stanza.to.Text? && hostOf(stanza.to.value) == Some(d)
    ensures var m := RemoveRoute(routes, Some(d), hostOf);
      var s := stanza.(uri := ComponentAccept);
      && Some(d) !in m.routes
      && (None in routes ==> Route(m.routes, stanza, origin, hostOf) == Ok({Send(routes[None], s)}))
      && (None !in routes && !stanza.from.Absent? ==> Route(m.routes, stanza, origin, hostOf) == Ok({Send(origin, Bounce(s))}))
      && (forall x :: x in m.announced ==> HostKey(x.stanza.to) in m.routes && x.stanza.kind == Text("unavailable"))
  {
    var m := RemoveRoute(routes, Some(d), hostOf);
    RouteAddressed(m.routes, stanza, origin, hostOf);
  }
}

=== FILE: runs_proofs.dfy ===
/**
 * Properties of the TLS session wrapper over whole runs of events: the
 * flags only go one way, the invariant is kept, the application hears of
 * the end of the connection with the right reason, and nothing reaches it
 * after the TLS connection is finished.
 */
module TlsSessionRuns {
  import opened Base
  import opened TlsEngine
  import opened TlsSession
  import opened TlsSessionProofs

  /**
   * `connectionLost` reports the reason the TLS connection ended with: the
   * stored one if it had already ended, otherwise the session error that
   * ends the final read (an unexpected EOF squashed to CONNECTION_LOST),
   * and the transport's own reason when that read ends cleanly.
   */
  lemma ConnectionLostReason(w: Wrapper, reason: Failure, e: Oracle)
    requires Valid(e) && Inv(w)
    ensures var r := TlsSession.ConnectionLost(w, reason, e);
      && (w.lost ==> r.out == [AppConnectionLost(if w.reason.Some? then w.reason.value else reason)])
      && (!w.lost && r.escaped.None? ==>
            var t := Terminal(e, w.calls + 1);
            r.out[|r.out| - 1] == AppConnectionLost(if t.RecvError? then RecvFailure(t.code, t.message) else reason))
  {
    if !w.lost {
      var f := FlushReceive(Tick(w), e);
      FlushReceiveEnds(Tick(w), e);
      if f.escaped.None? {
        var p := ReportLost(f.w.(lost := true), reason);
        assert TlsSession.ConnectionLost(w, reason, e).out == [ByeSent] + f.out + p.out;
      }
    }
  }

  /**
   * A second loss of the transport tells the application again, with the
   * second reason: the guard of `connectionLost` covers only the TLS
   * finalisation, not the base class's notification, so the promise of its
   * documentation that the application hears of the loss once is not kept.
   */
  lemma ConnectionLostRepeats(w: Wrapper, first: Failure, second: Failure, e: Oracle)
    requires Valid(e)
    ensures var a := Handle(w, TransportLost(first), e);
      a.escaped.None? ==>
        && |a.out| > 0 && a.out[|a.out| - 1].AppConnectionLost?
        && Handle(a.w, TransportLost(second), e) == Step(a.w, [AppConnectionLost(second)], None)
  {
  }

  /** Over any run of events the flags only go one way and the invariant is kept. */
  lemma {:induction false} AfterLater(w: Wrapper, evs: seq<Event>, e: Oracle)
    requires Valid(e)
    ensures Later(w, After(w, evs, e))
    ensures Inv(w) ==> Inv(After(w, evs, e))
    decreases |evs|
  {
    if |evs| > 0 {
      AfterLater(Handle(w, evs[0], e).w, evs[1..], e);
    }
  }

  /** Once the TLS connection is finished, no event delivers data to the application. */
  lemma LostQuiet(w: Wrapper, ev: Event, e: Oracle)
    requires Valid(e) && w.lost
    ensures var r := Handle(w, ev, e);
      r.w.lost && forall x :: x in r.out ==> !x.Delivered?
  {
    match ev
    case Close =>
      var r := LoseConnection(w, e);
      assert !Delivered([]).TransportWrite? && !Delivered([]).TransportLoseConnection?;
    case Register(p) =>
    case Unregister =>
      var r := UnregisterProducer(w, e);
      if w.producer.Some? {
        var p := w.producer.value;
        assert !Delivered([]).TransportWrite? && !Delivered([]).TransportLoseConnection?;
      }
    case AppWrite(data) =>
    case Received(data) =>
    case TransportLost(reason) =>
  }

  /** ... and that holds for every event of every later run. */
  lemma LostStaysQuiet(w: Wrapper, evs: seq<Event>, ev: Event, e: Oracle)
    requires Valid(e) && w.lost
    ensures forall x :: x in Handle(After(w, evs, e), ev, e).out ==> !x.Delivered?
  {
    AfterLater(w, evs, e);
    LostQuiet(After(w, evs, e), ev, e);
  }

  /** After `loseConnection`, calling it again at any later point does nothing. */
  lemma CloseIdempotent(w: Wrapper, evs: seq<Event>, e: Oracle)
    requires Valid(e)
    ensures var v := After(LoseConnection(w, e).w, evs, e);
      LoseConnection(v, e) == Step(v, [], None)
  {
    AfterLater(LoseConnection(w, e).w, evs, e);
  }
}

=== FILE: session.dfy ===
/**
 * `TLSSessionProtocol`: the wrapper that sits between the transport, its
 * GnuTLS session and the application protocol.
 *
 * Every handler is a pure function from the wrapper's fields to the fields
 * after the handler returns, the effects it had on its collaborators (in
 * order), and the exception that escaped it, if any. Python attribute
 * updates made before an exception escapes are kept, as they are in Python.
 */
module TlsSession {
  import opened Base
  import opened TlsEngine

  /** A producer registered by the application; `streaming` is false for a pull producer. */
  datatype Producer = Producer(id: nat, streaming: bool)

  /** What a handler does to the world outside the wrapper. */
  datatype Effect =
    | Fed(ciphertext: Bytes)                 // the received bytes the session's `send` took in dataReceived
    | Encrypted(plaintext: Bytes)            // the session's `send` took these application bytes
    | TransportWrite(data: Bytes)            // `_flushSend` wrote to the transport
    | TransportLoseConnection                // `transport.loseConnection()`
    | Delivered(data: Bytes)                 // the application protocol's `dataReceived`
    | AppConnectionLost(reason: Failure)     // the application protocol's `connectionLost`
    | ByeSent                                // the session's `bye()`
    | PauseProducing(p: Producer)
    | ResumeProducing(p: Producer)
    | StopProducing(p: Producer)
    | StartStreaming(p: Producer)            // a pull producer's adapter starts
    | StopStreaming(p: Producer)             // a pull producer's adapter stops
    | TransportRegisterProducer(p: Producer)
    | TransportUnregisterProducer

  /** An exception that leaves a handler. */
  datatype Escape =
    | WantReadRaised                         // `send` raised WantReadError outside `_write`
    | EndOfStreamRaised                      // `recv` raised the end-of-stream ValueError
    | EngineRaised(code: int, message: string)
    | ProducerAlreadyRegistered              // the transport refuses a second producer
    | NoProducerRegistered                   // `unregisterProducer` reads `None._producer`

  /**
   * The wrapper's fields: `calls` counts the calls made on the session;
   * `lost` is `_lostTLSConnection`, `writeBlocked` is `_writeBlockedOnRead`,
   * `sendBuffer` is `_appSendBuffer`, `reason` is `_reason`.
   */
  datatype Wrapper = Wrapper(
    calls: nat,
    handshakeDone: bool,
    lost: bool,
    writeBlocked: bool,
    disconnecting: bool,
    sendBuffer: seq<Bytes>,
    producer: Option<Producer>,
    reason: Option<Failure>)

  /** The wrapper after a handler, what it did, and what escaped it. */
  datatype Step = Step(w: Wrapper, out: seq<Effect>, escaped: Option<Escape>)

  /** A wrapper as `makeConnection` leaves it before the handshake. */
  function Fresh(): (w: Wrapper)
    ensures Inv(w) && !w.lost && !w.disconnecting && !w.handshakeDone
    ensures !w.writeBlocked && w.sendBuffer == [] && w.producer.None? && w.reason.None?
  {
    Wrapper(0, false, false, false, false, [], None, None)
  }

  /**
   * What every reachable wrapper satisfies: the buffer is non-empty exactly
   * while writes are blocked on a read, it never holds an empty chunk, and a
   * stored reason implies the TLS connection is gone.
   */
  ghost predicate Inv(w: Wrapper) {
    && (w.writeBlocked <==> |w.sendBuffer| > 0)
    && (forall i :: 0 <= i < |w.sendBuffer| ==> |w.sendBuffer[i]| > 0)
    && (w.reason.Some? ==> w.lost)
  }

  /** `b` is a later state than `a`: the flags only ever go from false to true. */
  ghost predicate Later(a: Wrapper, b: Wrapper) {
    && a.calls <= b.calls
    && (a.handshakeDone ==> b.handshakeDone)
    && (a.lost ==> b.lost)
    && (a.disconnecting ==> b.disconnecting)
  }

  /** The application bytes the session accepted, in order. */
  function Accepted(out: seq<Effect>): Bytes {
    if |out| == 0 then []
    else Accepted(out[..|out| - 1]) + (if out[|out| - 1].Encrypted? then out[|out| - 1].plaintext else [])
  }

  /** The chunks handed to the application protocol, in order. */
  function Deliveries(out: seq<Effect>): seq<Bytes> {
    if |out| == 0 then []
    else (if out[0].Delivered? then [out[0].data] else []) + Deliveries(out[1..])
  }

  /** The received bytes handed to the session, in order. */
  function FedBytes(out: seq<Effect>): seq<Bytes> {
    if |out| == 0 then []
    else (if out[0].Fed? then [out[0].ciphertext] else []) + FedBytes(out[1..])
  }

  /** The bytes written to the transport, in order. */
  function Written(out: seq<Effect>): seq<Bytes> {
    if |out| == 0 then []
    else (if out[0].TransportWrite? then [out[0].data] else []) + Written(out[1..])
  }

  /** The bytes of a list of buffered chunks, in order. */
  function Concat(chunks: seq<Bytes>): Bytes {
    if |chunks| == 0 then [] else Concat(chunks[..|chunks| - 1]) + chunks[|chunks| - 1]
  }

  lemma {:induction false} AcceptedAppend(a: seq<Effect>, b: seq<Effect>)
    ensures Accepted(a + b) == Accepted(a) + Accepted(b)
    decreases |b|
  {
    if |b| == 0 {
      assert a + b == a;
    } else {
      assert (a + b)[..|a + b| - 1] == a + b[..|b| - 1];
      AcceptedAppend(a, b[..|b| - 1]);
    }
  }

  lemma {:induction false} ConcatAppend(a: seq<Bytes>, b: seq<Bytes>)
    ensures Concat(a + b) == Concat(a) + Concat(b)
    decreases |b|
  {
    if |b| == 0 {
      assert a + b == a;
    } else {
      var init, last := b[..|b| - 1], b[|b| - 1];
      calc {
        Concat(a + b);
      == { assert (a + b)[..|a + b| - 1] == a + init; }
        Concat(a + init) + last;
      == { ConcatAppend(a, init); }
        (Concat(a) + Concat(init)) + last;
      ==
        Concat(a) + (Concat(init) + last);
      }
    }
  }

  /** The effects `_write` can have: accepted bytes, flushed bytes, a pause, or closing the transport. */
  predicate WriteEffect(x: Effect) {
    x.Encrypted? || x.TransportWrite? || x.PauseProducing? || x.TransportLoseConnection?
  }

  function Tick(w: Wrapper): Wrapper {
    w.(calls := w.calls + 1)
  }

  /**
   * `_flushSend`: one `recv` on the session; bytes go to the transport,
   * "would block" is ignored, any other outcome escapes.
   */
  function FlushSend(w: Wrapper, e: Oracle): (r: Step)
    ensures r.w == Tick(w)
    ensures forall x :: x in r.out ==> x.TransportWrite?
    // the session's data answer, and nothing else, is written to the transport
    ensures e.recv(w.calls).Data? ==> r.out == [TransportWrite(e.recv(w.calls).bytes)]
    ensures !e.recv(w.calls).Data? ==> r.out == []
    ensures r.escaped.None? <==> e.recv(w.calls).Data? || e.recv(w.calls).WouldBlock?
    ensures r.escaped == Some(EndOfStreamRaised) <==> e.recv(w.calls).EndOfStream?
    ensures e.recv(w.calls).RecvError? ==>
              r.escaped == Some(EngineRaised(e.recv(w.calls).code, e.recv(w.calls).message))
  {
    match e.recv(w.calls)
    case Data(b) => Step(Tick(w), [TransportWrite(b)], None)
    case WouldBlock => Step(Tick(w), [], None)
    case EndOfStream => Step(Tick(w), [], Some(EndOfStreamRaised))
    case RecvError(c, m) => Step(Tick(w), [], Some(EngineRaised(c, m)))
  }

  /**
   * `_shutdownTLS`: `bye`, flush, and close the transport once both sides
   * have said goodbye.
   */
  function ShutdownTLS(w: Wrapper, e: Oracle): (r: Step)
    ensures r.w == w.(calls := w.calls + 2)
    ensures |r.out| > 0 && r.out[0] == ByeSent
    ensures forall x :: x in r.out[1..] ==> x.TransportWrite? || x.TransportLoseConnection?
    ensures forall x :: x in r.out ==> x == ByeSent || x.TransportWrite? || x.TransportLoseConnection?
    ensures r.escaped.None? ==> (TransportLoseConnection in r.out <==> e.bye(w.calls))
  {
    var f := FlushSend(Tick(w), e);
    if f.escaped.Some? then Step(f.w, [ByeSent] + f.out, f.escaped)
    else Step(f.w, [ByeSent] + f.out + (if e.bye(w.calls) then [TransportLoseConnection] else []), None)
  }

  /** `_tlsShutdownFinished`: remember the reason, mark the TLS connection lost, close the transport. */
  function ShutdownFinished(w: Wrapper, reason: Option<Failure>): (r: Step)
    ensures r.w.lost && r.w.reason == reason && r.escaped.None?
    ensures r.w == w.(lost := true, reason := reason)
    ensures r.out == [TransportLoseConnection]
  {
    Step(w.(lost := true, reason := reason), [TransportLoseConnection], None)
  }

  /** The number of `Data` answers in a row from call `k` on. */
  ghost function DataRun(e: Oracle, k: nat): (n: nat)
    requires Valid(e)
    ensures !e.recv(k + n).Data?
    decreases e.backlog(k)
  {
    if e.recv(k).Data? then 1 + DataRun(e, k + 1) else 0
  }

  /** The answer that ends the run of `Data` answers from call `k`. */
  ghost function Terminal(e: Oracle, k: nat): (t: RecvOutcome)
    requires Valid(e)
    ensures !t.Data?
  {
    e.recv(k + DataRun(e, k))
  }

  /** The bytes of the run of `Data` answers from call `k` on, in order. */
  ghost function RunData(e: Oracle, k: nat): seq<Bytes>
    requires Valid(e)
    decreases e.backlog(k)
  {
    if e.recv(k).Data? then [e.recv(k).bytes] + RunData(e, k + 1) else []
  }

  /**
   * `_flushReceive`: read from the session until it would block, delivering
   * every decrypted chunk; end-of-stream shuts TLS down and finishes with no
   * reason, an error finishes with its failure. A final flush follows.
   * What it delivers and how it ends are the lemmas `FlushReceiveDelivers`
   * and `FlushReceiveEnds`.
   */
  function FlushReceive(w: Wrapper, e: Oracle): (r: Step)
    requires Valid(e)
    ensures Later(w, r.w)
    ensures r.w.sendBuffer == w.sendBuffer && r.w.writeBlocked == w.writeBlocked
    ensures r.w.disconnecting == w.disconnecting && r.w.producer == w.producer
    ensures Inv(w) ==> Inv(r.w)
    ensures forall x :: x in r.out ==> !x.Encrypted? && !x.AppConnectionLost? && !x.Fed?
    // once the TLS connection is lost, nothing is read or delivered
    ensures w.lost ==> r.w == Tick(w) && forall x :: x in r.out ==> x.TransportWrite?
    decreases e.backlog(w.calls)
  {
    if w.lost then FlushSend(w, e)
    else
      var w1 := Tick(w);
      match e.recv(w.calls)
      case Data(b) =>
        var t := FlushReceive(w1.(handshakeDone := true), e);
        Step(t.w, [Delivered(b)] + t.out, t.escaped)
      case WouldBlock =>
        FlushSend(w1, e)
      case EndOfStream => ReadEnded(w1, e)
      case RecvError(c, m) => ReadFailed(w1, c, m, e)
  }

  /** End-of-stream in `_flushReceive`: shut TLS down, finish it with no reason, flush. */
  function ReadEnded(w: Wrapper, e: Oracle): (r: Step)
    ensures Later(w, r.w) && (Inv(w) ==> Inv(r.w))
    ensures r.w.sendBuffer == w.sendBuffer && r.w.writeBlocked == w.writeBlocked
    ensures r.w.disconnecting == w.disconnecting && r.w.producer == w.producer
    ensures r.w.handshakeDone == w.handshakeDone
    ensures forall x :: x in r.out ==> x == ByeSent || x.TransportWrite? || x.TransportLoseConnection?
    ensures |r.out| > 0 && r.out[0] == ByeSent
    ensures r.escaped.None? ==> r.w.lost && r.w.reason.None?
  {
    var s := ShutdownTLS(w, e);
    if s.escaped.Some? then s
    else
      var d := ShutdownFinished(s.w, None);
      var f := FlushSend(d.w, e);
      Step(f.w, s.out + d.out + f.out, f.escaped)
  }

  /** A session error in `_flushReceive`: flush, finish the TLS connection with the error, flush. */
  function ReadFailed(w: Wrapper, code: int, message: string, e: Oracle): (r: Step)
    ensures Later(w, r.w) && (Inv(w) ==> Inv(r.w))
    ensures r.w.sendBuffer == w.sendBuffer && r.w.writeBlocked == w.writeBlocked
    ensures r.w.disconnecting == w.disconnecting && r.w.producer == w.producer
    ensures r.w.handshakeDone == w.handshakeDone
    ensures forall x :: x in r.out ==> x.TransportWrite? || x.TransportLoseConnection?
    ensures r.escaped.None? ==> r.w.lost && r.w.reason == Some(RecvFailure(code, message))
  {
    var f := FlushSend(w, e);
    if f.escaped.Some? then f
    else
      var d := ShutdownFinished(f.w, Some(RecvFailure(code, message)));
      var g := FlushSend(d.w, e);
      Step(g.w, f.out + d.out + g.out, g.escaped)
  }

  /**
   * The loop of `_write`: hand what is left to the session until it is all
   * taken, the session wants to read first (the rest is buffered and the
   * producer paused), or it fails (the TLS connection is finished with that
   * failure). What it accepts and buffers is the lemma `SendLoopConserves`.
   */
  function SendLoop(w: Wrapper, left: Bytes, e: Oracle): (r: Step)
    requires Valid(e)
    ensures Later(w, r.w) && (Inv(w) ==> Inv(r.w))
    ensures r.w.producer == w.producer && r.w.disconnecting == w.disconnecting
    ensures |w.sendBuffer| <= |r.w.sendBuffer| <= |w.sendBuffer| + 1
    ensures r.w.sendBuffer[..|w.sendBuffer|] == w.sendBuffer
    ensures r.w.writeBlocked == (w.writeBlocked || |r.w.sendBuffer| > |w.sendBuffer|)
    ensures forall x :: x in r.out ==> WriteEffect(x)
    // a buffered remainder is exactly what the session refused
    ensures |r.w.sendBuffer| > |w.sendBuffer| ==>
              && r.escaped.None? && r.w.calls > w.calls
              && |r.w.sendBuffer[|w.sendBuffer|]| > 0
              && e.send(r.w.calls - 1, r.w.sendBuffer[|w.sendBuffer|]).WantRead?
    ensures !r.w.lost ==> r.w.reason == w.reason
    decreases |left|
  {
    if |left| == 0 then Step(w, [], None)
    else
      var w1 := Tick(w);
      match e.send(w.calls, left)
      case WantRead =>
        var pause := if w.producer.Some? then [PauseProducing(w.producer.value)] else [];
        Step(w1.(writeBlocked := true, sendBuffer := w.sendBuffer + [left]), pause, None)
      case SendError(c, m) =>
        ShutdownFinished(w1, Some(EngineFailure(c, m)))
      case Sent(n) =>
        assert SendFits(e.send(w.calls, left), left);
        var f := FlushSend(w1.(handshakeDone := true), e);
        if f.escaped.Some? then
          Step(f.w, [Encrypted(left[..n])] + f.out, f.escaped)
        else
          var t := SendLoop(f.w, left[n..], e);
          Step(t.w, [Encrypted(left[..n])] + f.out + t.out, t.escaped)
  }

  lemma {:induction false} AcceptedNone(out: seq<Effect>)
    requires forall x :: x in out ==> !x.Encrypted?
    ensures Accepted(out) == []
    decreases |out|
  {
    if |out| > 0 {
      assert out[|out| - 1] in out;
      AcceptedNone(out[..|out| - 1]);
    }
  }

  /** `_write`: nothing happens once the TLS connection is lost; otherwise the send loop. */
  function WriteRaw(w: Wrapper, data: Bytes, e: Oracle): (r: Step)
    requires Valid(e)
    ensures w.lost ==> r == Step(w, [], None)
    ensures !w.lost ==> r == SendLoop(w, data, e)
  {
    if w.lost then Step(w, [], None) else SendLoop(w, data, e)
  }

  /**
   * `write`: after `loseConnection` without a producer the bytes are dropped
   * and nothing changes; otherwise `_write`.
   */
  function Write(w: Wrapper, data: Bytes, e: Oracle): (r: Step)
    requires Valid(e)
    ensures Later(w, r.w) && (Inv(w) ==> Inv(r.w))
    ensures (w.disconnecting && w.producer.None?) || w.lost ==> r == Step(w, [], None)
    ensures !(w.disconnecting && w.producer.None?) ==> r == WriteRaw(w, data, e)
  {
    if w.disconnecting && w.producer.None? then Step(w, [], None)
    else
      WriteRaw(w, data, e)
  }

  /**
   * The replay loop of `dataReceived`: every chunk of the old buffer goes
   * through `_write` in order; an escaping exception ends the handler.
   */
  function Replay(w: Wrapper, chunks: seq<Bytes>, e: Oracle): (r: Step)
    requires Valid(e)
    ensures Later(w, r.w) && (Inv(w) ==> Inv(r.w))
    ensures r.w.producer == w.producer && r.w.disconnecting == w.disconnecting
    ensures |w.sendBuffer| <= |r.w.sendBuffer| <= |w.sendBuffer| + |chunks|
    ensures r.w.sendBuffer[..|w.sendBuffer|] == w.sendBuffer
    ensures r.w.writeBlocked == (w.writeBlocked || |r.w.sendBuffer| > |w.sendBuffer|)
    ensures forall x :: x in r.out ==> WriteEffect(x)
    decreases |chunks|
  {
    if |chunks| == 0 then Step(w, [], None)
    else
      var s := WriteRaw(w, chunks[0], e);
      if s.escaped.Some? then s
      else
        var t := Replay(s.w, chunks[1..], e);
        Step(t.w, s.out + t.out, t.escaped)
  }

  /**
   * The unblocking part of `dataReceived`: when writes were blocked on a
   * read, clear the flag, swap the buffer for an empty one and replay it;
   * then start the deferred shutdown if nothing blocks it any more, and
   * resume the producer.
   */
  function Unblock(w: Wrapper, e: Oracle): (r: Step)
    requires Valid(e)
    ensures Later(w, r.w) && (Inv(w) ==> Inv(r.w))
    ensures r.w.producer == w.producer && r.w.disconnecting == w.disconnecting
    ensures !w.writeBlocked ==> r == Step(w, [], None)
    ensures w.writeBlocked ==> |r.w.sendBuffer| <= |w.sendBuffer|
    ensures forall x :: x in r.out ==> !x.Delivered? && !x.AppConnectionLost? && !x.Fed?
  {
    if !w.writeBlocked then Step(w, [], None)
    else
      var rp := Replay(w.(writeBlocked := false, sendBuffer := []), w.sendBuffer, e);
      if rp.escaped.Some? then rp
      else
        var f := AfterReplay(rp.w, e);
        Step(f.w, rp.out + f.out, f.escaped)
  }

  /**
   * The rest of the unblocking step once the old buffer has been retried:
   * the deferred shutdown, when nothing blocks any more, the wrapper is
   * disconnecting and has no producer; then resuming the producer.
   */
  function AfterReplay(w: Wrapper, e: Oracle): (r: Step)
    ensures Later(w, r.w) && (Inv(w) ==> Inv(r.w))
    ensures r.w.sendBuffer == w.sendBuffer && r.w.writeBlocked == w.writeBlocked && r.w.lost == w.lost
    ensures r.w.producer == w.producer && r.w.disconnecting == w.disconnecting
    ensures forall x :: x in r.out ==> x == ByeSent || x.TransportWrite? || x.TransportLoseConnection? || x.ResumeProducing?
    ensures r.escaped.None? ==> (ByeSent in r.out <==> !w.writeBlocked && w.disconnecting && w.producer.None?)
    ensures r.escaped.None? && w.producer.Some? ==> |r.out| > 0 && r.out[|r.out| - 1] == ResumeProducing(w.producer.value)
  {
    var sd := if !w.writeBlocked && w.disconnecting && w.producer.None?
              then ShutdownTLS(w, e) else Step(w, [], None);
    if sd.escaped.Some? then sd
    else
      var resume := if w.producer.Some? then [ResumeProducing(w.producer.value)] else [];
      Step(sd.w, sd.out + resume, None)
  }

  /**
   * `dataReceived`: pass the bytes to the session's `send` once (an
   * exception from it escapes), unblock pending writes, then read what
   * became available. The count `send` returns is ignored: bytes it did not
   * take are dropped, neither retried nor buffered.
   */
  function DataReceived(w: Wrapper, data: Bytes, e: Oracle): (r: Step)
    requires Valid(e)
    ensures Later(w, r.w) && (Inv(w) ==> Inv(r.w))
    ensures r.w.producer == w.producer
    ensures !e.send(w.calls, data).Sent? ==> r == Step(Tick(w), [], r.escaped) && r.escaped.Some?
    ensures e.send(w.calls, data).Sent? ==>
              |r.out| > 0 && r.out[0] == Fed(data[..e.send(w.calls, data).count])
    // the session is handed bytes once only: what it did not take is not offered again
    ensures forall i :: 0 < i < |r.out| ==> !r.out[i].Fed?
    ensures !w.writeBlocked ==> r.w.sendBuffer == w.sendBuffer
    // once the TLS connection is lost nothing more reaches the application
    ensures w.lost ==> forall x :: x in r.out ==> !x.Delivered? && !x.AppConnectionLost?
  {
    match e.send(w.calls, data)
    case WantRead => Step(Tick(w), [], Some(WantReadRaised))
    case SendError(c, m) => Step(Tick(w), [], Some(EngineRaised(c, m)))
    case Sent(n) =>
      assert SendFits(e.send(w.calls, data), data);
      var u := Unblock(Tick(w), e);
      if u.escaped.Some? then Step(u.w, [Fed(data[..n])] + u.out, u.escaped)
      else
        var f := FlushReceive(u.w, e);
        Step(f.w, [Fed(data[..n])] + u.out + f.out, f.escaped)
  }

  /** Lines 346-348 of `connectionLost`: report the stored reason if any, else the transport's, and forget it. */
  function ReportLost(w: Wrapper, reason: Failure): (r: Step)
    ensures r.w == w.(reason := None) && r.escaped.None?
    ensures r.out == [AppConnectionLost(if w.reason.Some? then w.reason.value else reason)]
  {
    Step(w.(reason := None), [AppConnectionLost(if w.reason.Some? then w.reason.value else reason)], None)
  }

  /**
   * `connectionLost`: unless the TLS connection is already finished, say
   * `bye`, read what is left and mark it finished; then tell the
   * application, once per call. A repeated call tells it again
   * (`TlsSessionRuns.ConnectionLostRepeats`).
   */
  function ConnectionLost(w: Wrapper, reason: Failure, e: Oracle): (r: Step)
    requires Valid(e)
    ensures Later(w, r.w) && (Inv(w) ==> Inv(r.w))
    ensures r.w.producer == w.producer && r.w.sendBuffer == w.sendBuffer
    ensures r.escaped.None? ==> r.w.lost && r.w.reason.None?
    ensures w.lost ==> r == ReportLost(w, reason)
    ensures !w.lost ==> |r.out| > 0 && r.out[0] == ByeSent
    ensures r.escaped.None? ==> |r.out| > 0 && r.out[|r.out| - 1].AppConnectionLost?
    ensures forall i :: 0 <= i < |r.out| - 1 ==> !r.out[i].AppConnectionLost?
  {
    if w.lost then ReportLost(w, reason)
    else
      var f := FlushReceive(Tick(w), e);
      if f.escaped.Some? then Step(f.w, [ByeSent] + f.out, f.escaped)
      else
        var p := ReportLost(f.w.(lost := true), reason);
        assert forall x :: x in [ByeSent] + f.out ==> !x.AppConnectionLost?;
        Step(p.w, [ByeSent] + f.out + p.out, None)
  }

  /**
   * `loseConnection`: a second call does nothing; the first marks the
   * wrapper disconnecting and shuts TLS down at once unless a blocked write
   * or a registered producer defers it.
   */
  function LoseConnection(w: Wrapper, e: Oracle): (r: Step)
    ensures Later(w, r.w) && (Inv(w) ==> Inv(r.w))
    ensures w.disconnecting ==> r == Step(w, [], None)
    ensures r.w.disconnecting
    ensures r.w == w.(disconnecting := true, calls := r.w.calls)
    ensures ByeSent in r.out <==> !w.disconnecting && !w.writeBlocked && w.producer.None?
  {
    if w.disconnecting then Step(w, [], None)
    else
      var w1 := w.(disconnecting := true);
      if !w.writeBlocked && w.producer.None? then ShutdownTLS(w1, e) else Step(w1, [], None)
  }

  /**
   * `registerProducer`: after the TLS connection is lost the producer is
   * told to stop and not kept; otherwise it is registered with the transport
   * (which refuses a second one), and a pull producer's adapter starts.
   */
  function RegisterProducer(w: Wrapper, p: Producer): (r: Step)
    ensures Later(w, r.w) && (Inv(w) ==> Inv(r.w))
    ensures w.lost ==> r == Step(w, [StopProducing(p)], None)
    ensures !w.lost && w.producer.Some? ==> r == Step(w, [], Some(ProducerAlreadyRegistered))
    ensures !w.lost && w.producer.None? ==>
              && r.escaped.None? && r.w == w.(producer := Some(p))
              && |r.out| > 0 && r.out[0] == TransportRegisterProducer(p)
              && (StartStreaming(p) in r.out <==> !p.streaming)
  {
    if w.lost then Step(w, [StopProducing(p)], None)
    else if w.producer.Some? then Step(w, [], Some(ProducerAlreadyRegistered))
    else
      Step(w.(producer := Some(p)),
           [TransportRegisterProducer(p)] + (if p.streaming then [] else [StartStreaming(p)]), None)
  }

  /**
   * `unregisterProducer`: with no producer the attribute lookup raises;
   * otherwise stop a pull producer's adapter, forget the producer,
   * unregister it from the transport, and start the deferred shutdown if
   * disconnecting and not blocked.
   */
  function UnregisterProducer(w: Wrapper, e: Oracle): (r: Step)
    ensures Later(w, r.w) && (Inv(w) ==> Inv(r.w))
    ensures w.producer.None? ==> r == Step(w, [], Some(NoProducerRegistered))
    ensures w.producer.Some? ==> r.w.producer.None? && r.w == w.(producer := None, calls := r.w.calls)
    ensures w.producer.Some? ==> TransportUnregisterProducer in r.out
    ensures w.producer.Some? ==> (StopStreaming(w.producer.value) in r.out <==> !w.producer.value.streaming)
    ensures w.producer.Some? ==> (ByeSent in r.out <==> w.disconnecting && !w.writeBlocked)
  {
    if w.producer.None? then Step(w, [], Some(NoProducerRegistered))
    else
      var p := w.producer.value;
      var pre := (if p.streaming then [] else [StopStreaming(p)]) + [TransportUnregisterProducer];
      var w1 := w.(producer := None);
      if w.disconnecting && !w.writeBlocked then
        var s := ShutdownTLS(w1, e);
        Step(s.w, pre + s.out, s.escaped)
      else Step(w1, pre, None)
  }

  /** The events the wrapper reacts to: the application writes or closes, the transport delivers or is lost, a producer comes or goes. */
  datatype Event =
    | AppWrite(data: Bytes)
    | Received(data: Bytes)
    | Close
    | TransportLost(reason: Failure)
    | Register(p: Producer)
    | Unregister

  /** Dispatch one event to its handler. */
  function Handle(w: Wrapper, ev: Event, e: Oracle): (r: Step)
    requires Valid(e)
    ensures Later(w, r.w) && (Inv(w) ==> Inv(r.w))
  {
    match ev
    case AppWrite(data) => Write(w, data, e)
    case Received(data) => DataReceived(w, data, e)
    case Close => LoseConnection(w, e)
    case TransportLost(reason) => ConnectionLost(w, reason, e)
    case Register(p) => RegisterProducer(w, p)
    case Unregister => UnregisterProducer(w, e)
  }

  /**
   * The wrapper after a sequence of events. An exception that escapes a
   * handler goes to the reactor; the wrapper keeps the fields it had then.
   */
  function After(w: Wrapper, evs: seq<Event>, e: Oracle): Wrapper
    requires Valid(e)
    decreases |evs|
  {
    if |evs| == 0 then w else After(Handle(w, evs[0], e).w, evs[1..], e)
  }
}

=== FILE: session_proofs.dfy ===
/**
 * Properties of the TLS session wrapper that relate several calls on the
 * session or several handlers.
 */
module TlsSessionProofs {
  import opened Base
  import opened TlsEngine
  import opened TlsSession

  /** A "would block" answer ends `_flushReceive` with the TLS connection still up. */
  lemma FlushReceiveWouldBlock(w: Wrapper, e: Oracle)
    requires Valid(e) && !w.lost && e.recv(w.calls).WouldBlock?
    ensures var r := FlushReceive(w, e);
      && (forall x :: x in r.out ==> x.TransportWrite?)
      && ByeSent !in r.out
      && r.w == Tick(Tick(w))
  {
  }

  /** End-of-stream shuts TLS down and finishes it with no reason of its own. */
  lemma FlushReceiveEndOfStream(w: Wrapper, e: Oracle)
    requires Valid(e) && !w.lost && e.recv(w.calls).EndOfStream?
    ensures var r := FlushReceive(w, e);
      && (forall x :: x in r.out ==> !x.Delivered?)
      && r.w.handshakeDone == w.handshakeDone
      && |r.out| > 0 && r.out[0] == ByeSent
      && (r.escaped.None? ==> r.w.lost && r.w.reason.None?)
  {
    var s := ShutdownTLS(Tick(w), e);
    if s.escaped.None? {
      var d := ShutdownFinished(s.w, None);
      var f := FlushSend(d.w, e);
      assert FlushReceive(w, e).out == s.out + d.out + f.out;
    }
  }

  /** A session error finishes TLS with that error, squashing an unexpected EOF to CONNECTION_LOST. */
  lemma FlushReceiveError(w: Wrapper, e: Oracle)
    requires Valid(e) && !w.lost && e.recv(w.calls).RecvError?
    ensures var r := FlushReceive(w, e); var t := e.recv(w.calls);
      && (forall x :: x in r.out ==> x.TransportWrite? || x.TransportLoseConnection?)
      && ByeSent !in r.out
      && r.w.handshakeDone == w.handshakeDone
      && (r.escaped.None? ==> r.w.lost && r.w.reason == Some(RecvFailure(t.code, t.message)))
  {
  }

  /** A data answer is delivered, sets `_handshakeDone`, and the loop goes on. */
  lemma FlushReceiveData(w: Wrapper, e: Oracle)
    requires Valid(e) && !w.lost && e.recv(w.calls).Data?
    ensures var t := FlushReceive(Tick(w).(handshakeDone := true), e);
      FlushReceive(w, e) == Step(t.w, [Delivered(e.recv(w.calls).bytes)] + t.out, t.escaped)
  {
  }

  /** After a data answer, `_flushReceive` ends as the rest of the loop ends. */
  lemma FlushReceiveDataStep(w: Wrapper, e: Oracle)
    requires Valid(e) && !w.lost && e.recv(w.calls).Data?
    ensures var r := FlushReceive(w, e); var t := FlushReceive(Tick(w).(handshakeDone := true), e);
      && r.w == t.w && r.escaped == t.escaped
      && (ByeSent in r.out <==> ByeSent in t.out)
  {
    FlushReceiveData(w, e);
  }

  /** A data answer does not change how the run of data answers ends. */
  lemma TerminalStep(e: Oracle, k: nat)
    requires Valid(e) && e.recv(k).Data?
    ensures Terminal(e, k) == Terminal(e, k + 1)
  {
    assert DataRun(e, k) == 1 + DataRun(e, k + 1);
  }

  /** One step of `_flushReceive` that does not read data ends the loop. */
  lemma FlushReceiveStops(w: Wrapper, e: Oracle)
    requires Valid(e) && !w.lost && !e.recv(w.calls).Data?
    ensures var r := FlushReceive(w, e); var t := e.recv(w.calls);
      && (forall x :: x in r.out ==> !x.Delivered?)
      && r.w.handshakeDone == w.handshakeDone
      && (t.WouldBlock? ==> !r.w.lost && r.w.reason == w.reason && ByeSent !in r.out)
      && (r.escaped.None? && !t.WouldBlock? ==> r.w.lost)
      && (r.escaped.None? && t.EndOfStream? ==> r.w.reason.None? && ByeSent in r.out)
      && (r.escaped.None? && t.RecvError? ==> r.w.reason == Some(RecvFailure(t.code, t.message)))
      && (t.RecvError? ==> ByeSent !in r.out)
  {
    var r := FlushReceive(w, e);
    match e.recv(w.calls)
    case WouldBlock =>
      FlushReceiveWouldBlock(w, e);
    case EndOfStream =>
      FlushReceiveEndOfStream(w, e);
      assert r.out[0] in r.out;
    case RecvError(c, m) =>
      FlushReceiveError(w, e);
  }

  lemma DeliveriesCons(d: Bytes, rest: seq<Effect>)
    ensures Deliveries([Delivered(d)] + rest) == [d] + Deliveries(rest)
  {
    assert ([Delivered(d)] + rest)[1..] == rest;
  }

  lemma {:induction false} DeliveriesNone(out: seq<Effect>)
    requires forall x :: x in out ==> !x.Delivered?
    ensures Deliveries(out) == []
    decreases |out|
  {
    if |out| > 0 {
      assert out[0] in out;
      assert forall x :: x in out[1..] ==> x in out;
      DeliveriesNone(out[1..]);
    }
  }

  /**
   * `_flushReceive` hands the application exactly the run of decrypted
   * chunks the session produced, in order, and nothing else.
   */
  lemma {:induction false} FlushReceiveDelivers(w: Wrapper, e: Oracle)
    requires Valid(e) && !w.lost
    ensures Deliveries(FlushReceive(w, e).out) == RunData(e, w.calls)
    decreases e.backlog(w.calls)
  {
    if e.recv(w.calls).Data? {
      FlushReceiveDelivers(Tick(w).(handshakeDone := true), e);
      FlushReceiveDeliversStep(w, e);
    } else {
      FlushReceiveDeliversNone(w, e);
    }
  }

  lemma FlushReceiveDeliversStep(w: Wrapper, e: Oracle)
    requires Valid(e) && !w.lost && e.recv(w.calls).Data?
    requires Deliveries(FlushReceive(Tick(w).(handshakeDone := true), e).out) == RunData(e, w.calls + 1)
    ensures Deliveries(FlushReceive(w, e).out) == RunData(e, w.calls)
  {
    FlushReceiveData(w, e);
    DeliveriesCons(e.recv(w.calls).bytes, FlushReceive(Tick(w).(handshakeDone := true), e).out);
  }

  lemma FlushReceiveDeliversNone(w: Wrapper, e: Oracle)
    requires Valid(e) && !w.lost && !e.recv(w.calls).Data?
    ensures Deliveries(FlushReceive(w, e).out) == RunData(e, w.calls) == []
  {
    FlushReceiveStops(w, e);
    DeliveriesNone(FlushReceive(w, e).out);
  }

  /** `_handshakeDone` is set by `_flushReceive` exactly when it delivered something. */
  lemma {:induction false} FlushReceiveHandshake(w: Wrapper, e: Oracle)
    requires Valid(e) && !w.lost
    ensures FlushReceive(w, e).w.handshakeDone <==> w.handshakeDone || |RunData(e, w.calls)| > 0
    decreases e.backlog(w.calls)
  {
    if e.recv(w.calls).Data? {
      var w2 := Tick(w).(handshakeDone := true);
      FlushReceiveHandshake(w2, e);
      FlushReceiveData(w, e);
    } else {
      FlushReceiveStops(w, e);
    }
  }

  /**
   * How a read loop that ended on answer `t`, starting with stored reason
   * `reason`, left things: the wrapper `rw`, the escaping exception, and
   * whether `bye` was said.
   */
  predicate EndsAs(t: RecvOutcome, reason: Option<Failure>, rw: Wrapper, escaped: Option<Escape>, bye: bool) {
    && (t.WouldBlock? ==> !rw.lost && rw.reason == reason && !bye)
    && (escaped.None? && !t.WouldBlock? ==> rw.lost)
    && (escaped.None? && t.EndOfStream? ==> rw.reason.None? && bye)
    && (escaped.None? && t.RecvError? ==> rw.reason == Some(RecvFailure(t.code, t.message)))
    && (t.RecvError? ==> !bye)
  }

  /**
   * How `_flushReceive` ends is decided by the answer that ends the run of
   * data: "would block" leaves the TLS connection up; end-of-stream shuts it
   * down and finishes with no reason; an error finishes with its failure
   * (an unexpected EOF squashed to CONNECTION_LOST).
   */
  lemma {:induction false} FlushReceiveEnds(w: Wrapper, e: Oracle)
    requires Valid(e) && !w.lost
    ensures var r := FlushReceive(w, e);
      EndsAs(Terminal(e, w.calls), w.reason, r.w, r.escaped, ByeSent in r.out)
    decreases e.backlog(w.calls)
  {
    if e.recv(w.calls).Data? {
      FlushReceiveEnds(Tick(w).(handshakeDone := true), e);
      FlushReceiveDataStep(w, e);
      TerminalStep(e, w.calls);
    } else {
      assert DataRun(e, w.calls) == 0;
      FlushReceiveStops(w, e);
    }
  }

  lemma AcceptedSingle(p: Bytes)
    ensures Accepted([Encrypted(p)]) == p
  {
    assert [Encrypted(p)][..0] == [];
  }

  /** One accepted send in the loop of `_write`, unfolded. */
  lemma SendLoopSentUnfold(w: Wrapper, left: Bytes, e: Oracle)
    requires Valid(e) && |left| > 0 && e.send(w.calls, left).Sent?
    ensures var n := e.send(w.calls, left).count;
      var f := FlushSend(Tick(w).(handshakeDone := true), e);
      && 0 < n <= |left|
      && (f.escaped.Some? ==> SendLoop(w, left, e) == Step(f.w, [Encrypted(left[..n])] + f.out, f.escaped))
      && (f.escaped.None? ==>
            var t := SendLoop(f.w, left[n..], e);
            SendLoop(w, left, e) == Step(t.w, [Encrypted(left[..n])] + f.out + t.out, t.escaped))
  {
    assert SendFits(e.send(w.calls, left), left);
  }

  /** The loop of `_write` calls the session at least once when there is something to send. */
  lemma SendLoopCalls(w: Wrapper, left: Bytes, e: Oracle)
    requires Valid(e) && |left| > 0
    ensures SendLoop(w, left, e).w.calls > w.calls
  {
    if e.send(w.calls, left).Sent? {
      SendLoopSentUnfold(w, left, e);
    }
  }

  /** One accepted send in the loop of `_write`: the accepted prefix is handed over, then the rest is sent. */
  lemma SendLoopSent(w: Wrapper, left: Bytes, e: Oracle)
    requires Valid(e) && |left| > 0 && e.send(w.calls, left).Sent?
    ensures var n := e.send(w.calls, left).count;
      var f := FlushSend(Tick(w).(handshakeDone := true), e);
      var r := SendLoop(w, left, e);
      && 0 < n <= |left|
      && (f.escaped.Some? ==> r.w == f.w && r.escaped.Some? && Accepted(r.out) == left[..n])
      && (f.escaped.None? ==>
            var t := SendLoop(f.w, left[n..], e);
            r.w == t.w && r.escaped == t.escaped && Accepted(r.out) == left[..n] + Accepted(t.out))
  {
    SendLoopSentUnfold(w, left, e);
    var n := e.send(w.calls, left).count;
    var f := FlushSend(Tick(w).(handshakeDone := true), e);
    var head := [Encrypted(left[..n])];
    AcceptedSingle(left[..n]);
    AcceptedNone(f.out);
    AcceptedAppend(head, f.out);
    assert Accepted(head + f.out) == left[..n];
    if f.escaped.None? {
      var t := SendLoop(f.w, left[n..], e);
      AcceptedAppend(head + f.out, t.out);
    }
  }

  /**
   * No byte is lost or duplicated by the loop of `_write`: what the session
   * took is a prefix of the input, and unless the TLS connection was lost or
   * an exception escaped, that prefix followed by the buffered remainder is
   * the input.
   */
  lemma {:induction false} SendLoopConserves(w: Wrapper, left: Bytes, e: Oracle)
    requires Valid(e)
    ensures var r := SendLoop(w, left, e);
      && IsPrefix(Accepted(r.out), left)
      && (r.escaped.None? && !r.w.lost ==> Accepted(r.out) + Concat(r.w.sendBuffer[|w.sendBuffer|..]) == left)
    decreases |left|
  {
    var r := SendLoop(w, left, e);
    if |left| == 0 {
      assert r.w.sendBuffer[|w.sendBuffer|..] == [];
    } else if e.send(w.calls, left).Sent? {
      var n := e.send(w.calls, left).count;
      SendLoopSent(w, left, e);
      if FlushSend(Tick(w).(handshakeDone := true), e).escaped.None? {
        SendLoopConserves(FlushSend(Tick(w).(handshakeDone := true), e).w, left[n..], e);
      }
      SendLoopConservesSent(w, left, e);
    } else {
      AcceptedNone(r.out);
      if e.send(w.calls, left).WantRead? {
        assert r.w.sendBuffer[|w.sendBuffer|..] == [left];
        assert Concat([left]) == Concat([]) + left;
      }
    }
  }

  /** An accepted send, then the rest of the loop conserving its bytes: the whole loop conserves them. */
  lemma SendLoopConservesSent(w: Wrapper, left: Bytes, e: Oracle)
    requires Valid(e) && |left| > 0 && e.send(w.calls, left).Sent?
    requires var n := e.send(w.calls, left).count;
      var f := FlushSend(Tick(w).(handshakeDone := true), e);
      var t := SendLoop(f.w, left[n..], e);
      n <= |left| &&
      (f.escaped.None? ==>
        && IsPrefix(Accepted(t.out), left[n..])
        && (t.escaped.None? && !t.w.lost ==> Accepted(t.out) + Concat(t.w.sendBuffer[|f.w.sendBuffer|..]) == left[n..]))
    ensures var r := SendLoop(w, left, e);
      && IsPrefix(Accepted(r.out), left)
      && (r.escaped.None? && !r.w.lost ==> Accepted(r.out) + Concat(r.w.sendBuffer[|w.sendBuffer|..]) == left)
  {
    var n := e.send(w.calls, left).count;
    SendLoopSent(w, left, e);
    var f := FlushSend(Tick(w).(handshakeDone := true), e);
    if f.escaped.None? {
      var t := SendLoop(f.w, left[n..], e);
      PrefixJoin(left, n, Accepted(t.out), Concat(t.w.sendBuffer[|f.w.sendBuffer|..]),
                 t.escaped.None? && !t.w.lost);
    } else {
      PrefixJoin(left, n, [], [], false);
    }
  }

  lemma PrefixJoin(l: Bytes, n: nat, a: Bytes, c: Bytes, whole: bool)
    requires n <= |l| && IsPrefix(a, l[n..]) && (whole ==> a + c == l[n..])
    ensures IsPrefix(l[..n] + a, l) && (whole ==> (l[..n] + a) + c == l)
  {
    assert l[..n] + l[n..] == l;
    assert (l[..n] + a) == l[..n + |a|];
  }

  /** Accepting any byte sets `_handshakeDone`; nothing else does. */
  lemma {:induction false} SendLoopHandshake(w: Wrapper, left: Bytes, e: Oracle)
    requires Valid(e)
    ensures var r := SendLoop(w, left, e);
      r.w.handshakeDone <==> w.handshakeDone || |Accepted(r.out)| > 0
    decreases |left|
  {
    var r := SendLoop(w, left, e);
    if |left| > 0 {
      match e.send(w.calls, left)
      case WantRead =>
        AcceptedNone(r.out);
      case SendError(c, m) =>
        AcceptedNone(r.out);
      case Sent(n) =>
        SendLoopSent(w, left, e);
        var f := FlushSend(Tick(w).(handshakeDone := true), e);
        if f.escaped.None? {
          SendLoopHandshake(f.w, left[n..], e);
        }
    }
  }

  /** What the loop of `_write` buffers is the tail of its input that the session refused. */
  lemma {:induction false} SendLoopRemainder(w: Wrapper, left: Bytes, e: Oracle)
    requires Valid(e)
    ensures var r := SendLoop(w, left, e);
      |r.w.sendBuffer| > |w.sendBuffer| ==> IsSuffix(r.w.sendBuffer[|w.sendBuffer|], left)
    decreases |left|
  {
    if |left| > 0 && e.send(w.calls, left).Sent? {
      SendLoopSentUnfold(w, left, e);
      var f := FlushSend(Tick(w).(handshakeDone := true), e);
      if f.escaped.None? {
        SendLoopRemainder(f.w, left[e.send(w.calls, left).count..], e);
      }
    }
  }

  /** When `_write` blocks on a read, the registered producer is paused last. */
  lemma {:induction false} SendLoopPauses(w: Wrapper, left: Bytes, e: Oracle)
    requires Valid(e) && w.producer.Some?
    ensures var r := SendLoop(w, left, e);
      |r.w.sendBuffer| > |w.sendBuffer| ==> |r.out| > 0 && r.out[|r.out| - 1] == PauseProducing(w.producer.value)
    decreases |left|
  {
    if |left| > 0 && e.send(w.calls, left).Sent? {
      SendLoopSentUnfold(w, left, e);
      var f := FlushSend(Tick(w).(handshakeDone := true), e);
      if f.escaped.None? {
        SendLoopPauses(f.w, left[e.send(w.calls, left).count..], e);
      }
    }
  }

  /** Send call `k` on `rest` failed with an error, and `reason` is that error's failure. */
  ghost predicate FailedSend(e: Oracle, k: nat, rest: Bytes, reason: Option<Failure>) {
    e.send(k, rest).SendError? && reason == Some(EngineFailure(e.send(k, rest).code, e.send(k, rest).message))
  }

  lemma SuffixOfDrop(rest: Bytes, left: Bytes, n: nat)
    requires n <= |left| && IsSuffix(rest, left[n..])
    ensures IsSuffix(rest, left)
  {
    assert left[|left| - |rest|..] == left[n..][|left[n..]| - |rest|..];
  }

  /**
   * What is left of the input when the loop of `_write` started at call `k`
   * on `left` makes its last send: the loop goes on after an accepted send
   * that left something and whose flush answered data or "would block".
   */
  ghost function LastOffered(e: Oracle, k: nat, left: Bytes): Bytes
    requires Valid(e)
    decreases |left|
  {
    if |left| == 0 || !e.send(k, left).Sent? then left
    else
      var n := e.send(k, left).count;
      var t := e.recv(k + 1);
      if (t.Data? || t.WouldBlock?) && 0 < n < |left| then LastOffered(e, k + 2, left[n..]) else left
  }

  /** The last send of the loop of `_write` is offered a suffix of the input. */
  lemma {:induction false} LastOfferedSuffix(e: Oracle, k: nat, left: Bytes)
    requires Valid(e)
    ensures IsSuffix(LastOffered(e, k, left), left)
    decreases |left|
  {
    if |left| > 0 && e.send(k, left).Sent? {
      var n := e.send(k, left).count;
      var t := e.recv(k + 1);
      if (t.Data? || t.WouldBlock?) && 0 < n < |left| {
        LastOfferedSuffix(e, k + 2, left[n..]);
        SuffixOfDrop(LastOffered(e, k + 2, left[n..]), left, n);
      }
    }
  }

  /**
   * How a loop of `_write` started in `w` on `left` ended, if the TLS
   * connection is lost at its end: no exception, nothing buffered, the
   * stored reason the failure of the failing send (the loop's last call, on
   * what was left of the input then), and the transport asked to close last.
   */
  ghost predicate LostBySend(w: Wrapper, left: Bytes, e: Oracle, r: Step)
    requires Valid(e)
  {
    r.w.lost ==>
      && r.escaped.None? && |r.w.sendBuffer| == |w.sendBuffer|
      && r.w.calls > w.calls
      && FailedSend(e, r.w.calls - 1, LastOffered(e, w.calls, left), r.w.reason)
      && |r.out| > 0 && r.out[|r.out| - 1] == TransportLoseConnection
  }

  /**
   * A session error during `_write` stops the loop and finishes the TLS
   * connection: `_lostTLSConnection` set, the error of the failing send
   * stored as `_reason`, the transport asked to close, nothing buffered.
   */
  lemma {:induction false} SendLoopFails(w: Wrapper, left: Bytes, e: Oracle)
    requires Valid(e) && !w.lost
    ensures LostBySend(w, left, e, SendLoop(w, left, e))
    decreases |left|
  {
    if |left| > 0 && e.send(w.calls, left).Sent? {
      var f := FlushSend(Tick(w).(handshakeDone := true), e);
      if f.escaped.None? {
        SendLoopFails(f.w, left[e.send(w.calls, left).count..], e);
      }
      SendLoopFailsStep(w, left, e);
    } else if |left| > 0 && e.send(w.calls, left).SendError? {
      var r := SendLoop(w, left, e);
      assert LastOffered(e, w.calls, left) == left;
      assert FailedSend(e, r.w.calls - 1, left, r.w.reason);
    }
  }

  /** An accepted send, then the rest of the loop ending as `LostBySend` says: so does the whole loop. */
  lemma SendLoopFailsStep(w: Wrapper, left: Bytes, e: Oracle)
    requires Valid(e) && !w.lost && |left| > 0 && e.send(w.calls, left).Sent?
    requires var f := FlushSend(Tick(w).(handshakeDone := true), e);
      f.escaped.None? ==> LostBySend(f.w, left[e.send(w.calls, left).count..], e,
                                     SendLoop(f.w, left[e.send(w.calls, left).count..], e))
    ensures LostBySend(w, left, e, SendLoop(w, left, e))
  {
    SendLoopSentUnfold(w, left, e);
    var r := SendLoop(w, left, e);
    var n := e.send(w.calls, left).count;
    var f := FlushSend(Tick(w).(handshakeDone := true), e);
    if f.escaped.None? {
      var t := SendLoop(f.w, left[n..], e);
      if n == |left| {
        assert t == Step(f.w, [], None);
      } else if t.w.lost {
        var g := Tick(w).(handshakeDone := true);
        FlushSendGoesOn(g, e);
        LostBySendShift(w, left, e, g.calls, f.w, [Encrypted(left[..n])] + f.out, t, r);
      }
    }
  }

  /** `_flushSend` lets its caller go on exactly after data or "would block", one call later. */
  lemma FlushSendGoesOn(w: Wrapper, e: Oracle)
    ensures var f := FlushSend(w, e);
      && f.w.calls == w.calls + 1 && f.w.sendBuffer == w.sendBuffer
      && (f.escaped.None? <==> e.recv(w.calls).Data? || e.recv(w.calls).WouldBlock?)
  {
  }

  /** The loop after an accepted send whose flush let it go on, lost as `LostBySend` says: so is the whole loop. */
  lemma LostBySendShift(w: Wrapper, left: Bytes, e: Oracle, k: nat, fw: Wrapper, head: seq<Effect>, t: Step, r: Step)
    requires Valid(e) && |left| > 0 && e.send(w.calls, left).Sent?
    requires k == w.calls + 1 && (e.recv(k).Data? || e.recv(k).WouldBlock?)
    requires fw.calls == k + 1 && |fw.sendBuffer| == |w.sendBuffer|
    requires e.send(w.calls, left).count < |left|
    requires t.w.lost && LostBySend(fw, left[e.send(w.calls, left).count..], e, t)
    requires r == Step(t.w, head + t.out, t.escaped)
    ensures LostBySend(w, left, e, r)
  {
    var n := e.send(w.calls, left).count;
    assert LastOffered(e, w.calls, left) == LastOffered(e, fw.calls, left[n..]);
    assert (head + t.out)[|head + t.out| - 1] == t.out[|t.out| - 1];
  }

  /**
   * What the session hands out for the transport during the loop of
   * `_write` started at call `k` on `left`: after each accepted send, the
   * answer of the `recv` that follows it, when that answer is data. The
   * loop goes on after data or "would block" and stops otherwise.
   */
  ghost function SendFlushes(e: Oracle, k: nat, left: Bytes): seq<Bytes>
    requires Valid(e)
    decreases |left|
  {
    if |left| == 0 || !e.send(k, left).Sent? then []
    else
      assert SendFits(e.send(k, left), left);
      var t := e.recv(k + 1);
      (if t.Data? then [t.bytes] else [])
      + (if t.Data? || t.WouldBlock? then SendFlushes(e, k + 2, left[e.send(k, left).count..]) else [])
  }

  lemma {:induction false} WrittenAppend(a: seq<Effect>, b: seq<Effect>)
    ensures Written(a + b) == Written(a) + Written(b)
    decreases |a|
  {
    if |a| == 0 {
      assert a + b == b;
    } else {
      assert (a + b)[0] == a[0] && (a + b)[1..] == a[1..] + b;
      WrittenAppend(a[1..], b);
    }
  }

  lemma {:induction false} WrittenNone(out: seq<Effect>)
    requires forall x :: x in out ==> !x.TransportWrite?
    ensures Written(out) == []
    decreases |out|
  {
    if |out| > 0 {
      assert out[0] in out;
      assert forall x :: x in out[1..] ==> x in out;
      WrittenNone(out[1..]);
    }
  }

  /** What one `_flushSend` writes to the transport. */
  lemma FlushSendWritten(w: Wrapper, e: Oracle)
    ensures Written(FlushSend(w, e).out) == if e.recv(w.calls).Data? then [e.recv(w.calls).bytes] else []
  {
    var t := e.recv(w.calls);
    if t.Data? {
      assert [TransportWrite(t.bytes)][1..] == [];
    }
  }

  /**
   * `_flushSend` inside `_write` writes to the transport exactly the data
   * answers of the `recv` calls that follow the accepted sends, in order,
   * and nothing else.
   */
  lemma {:induction false} SendLoopWrites(w: Wrapper, left: Bytes, e: Oracle)
    requires Valid(e)
    ensures Written(SendLoop(w, left, e).out) == SendFlushes(e, w.calls, left)
    decreases |left|
  {
    if |left| > 0 && e.send(w.calls, left).Sent? {
      var f := FlushSend(Tick(w).(handshakeDone := true), e);
      if f.escaped.None? {
        SendLoopWrites(f.w, left[e.send(w.calls, left).count..], e);
      }
      SendLoopWritesStep(w, left, e);
    } else {
      WrittenNone(SendLoop(w, left, e).out);
    }
  }

  /** An accepted send, then the rest of the loop writing its flushes: the whole loop writes them. */
  lemma SendLoopWritesStep(w: Wrapper, left: Bytes, e: Oracle)
    requires Valid(e) && |left| > 0 && e.send(w.calls, left).Sent?
    requires var f := FlushSend(Tick(w).(handshakeDone := true), e);
      var n := e.send(w.calls, left).count;
      n <= |left| &&
      (f.escaped.None? ==> Written(SendLoop(f.w, left[n..], e).out) == SendFlushes(e, f.w.calls, left[n..]))
    ensures Written(SendLoop(w, left, e).out) == SendFlushes(e, w.calls, left)
  {
    SendLoopSentUnfold(w, left, e);
    var n := e.send(w.calls, left).count;
    var g := Tick(w).(handshakeDone := true);
    var f := FlushSend(g, e);
    FlushSendGoesOn(g, e);
    FlushSendWritten(g, e);
    SendFlushesSent(e, w.calls, left, g.calls, f.w.calls);
    var tout := if f.escaped.None? then SendLoop(f.w, left[n..], e).out else [];
    WrittenShift(left[..n], f.out, tout, SendLoop(w, left, e).out, f.escaped.None?, e.recv(g.calls),
                 SendFlushes(e, w.calls, left), SendFlushes(e, f.w.calls, left[n..]));
  }

  /** The effects of an accepted send, its flush and the rest of the loop write `SendFlushes` unfolded once. */
  lemma WrittenShift(p: Bytes, fout: seq<Effect>, tout: seq<Effect>, rout: seq<Effect>, goesOn: bool,
                     t: RecvOutcome, flushes: seq<Bytes>, rest: seq<Bytes>)
    requires rout == [Encrypted(p)] + fout + tout
    requires Written(fout) == if t.Data? then [t.bytes] else []
    requires goesOn <==> t.Data? || t.WouldBlock?
    requires goesOn ==> Written(tout) == rest
    requires !goesOn ==> tout == []
    requires flushes == (if t.Data? then [t.bytes] else []) + (if goesOn then rest else [])
    ensures Written(rout) == flushes
  {
    var head: seq<Effect> := [Encrypted(p)];
    WrittenNone(head);
    WrittenAppend(head, fout);
    WrittenAppend(head + fout, tout);
  }

  /** `SendFlushes` after an accepted send at call `j`, unfolded once. */
  lemma SendFlushesSent(e: Oracle, j: nat, left: Bytes, k1: nat, k2: nat)
    requires Valid(e) && |left| > 0 && e.send(j, left).Sent? && k1 == j + 1 && k2 == j + 2
    ensures var t := e.recv(k1); var n := e.send(j, left).count;
      && n <= |left|
      && SendFlushes(e, j, left)
         == (if t.Data? then [t.bytes] else [])
            + (if t.Data? || t.WouldBlock? then SendFlushes(e, k2, left[n..]) else [])
  {
    assert SendFits(e.send(j, left), left);
  }

  lemma {:induction false} FedNone(out: seq<Effect>)
    requires forall i :: 0 <= i < |out| ==> !out[i].Fed?
    ensures FedBytes(out) == []
    decreases |out|
  {
    if |out| > 0 {
      FedNone(out[1..]);
    }
  }

  /**
   * `dataReceived` hands the session the received bytes its `send` took,
   * once, and nothing else: the rest is dropped, so all of the received
   * bytes reach the session iff `send` took them all.
   */
  lemma DataReceivedFeeds(w: Wrapper, data: Bytes, e: Oracle)
    requires Valid(e)
    ensures var r := DataReceived(w, data, e); var o := e.send(w.calls, data);
      && (!o.Sent? ==> FedBytes(r.out) == [])
      && (o.Sent? ==> o.count <= |data| && FedBytes(r.out) == [data[..o.count]])
      && (o.Sent? ==> (FedBytes(r.out) == [data] <==> o.count == |data|))
  {
    var r := DataReceived(w, data, e);
    if e.send(w.calls, data).Sent? {
      assert SendFits(e.send(w.calls, data), data);
      var n := e.send(w.calls, data).count;
      FedNone(r.out[1..]);
      assert r.out == [r.out[0]] + r.out[1..];
      assert FedBytes(r.out) == [data[..n]];
      if FedBytes(r.out) == [data] {
        assert |data[..n]| == |data|;
      }
      if n == |data| {
        assert data[..n] == data;
      }
    }
  }

  /**
   * `write`: dropped with no change after `loseConnection` without a
   * producer or once the TLS connection is lost; otherwise no byte is lost
   * or duplicated, and a block buffers the rest and pauses the producer.
   */
  lemma WriteNoLoss(w: Wrapper, data: Bytes, e: Oracle)
    requires Valid(e)
    ensures var r := Write(w, data, e);
      && ((w.disconnecting && w.producer.None?) || w.lost ==> r == Step(w, [], None))
      && IsPrefix(Accepted(r.out), data)
      && (r.escaped.None? && !r.w.lost && !(w.disconnecting && w.producer.None?) ==>
            Accepted(r.out) + Concat(r.w.sendBuffer[|w.sendBuffer|..]) == data)
      && (|r.w.sendBuffer| > |w.sendBuffer| ==>
            && r.w.writeBlocked
            && (w.producer.Some? ==> |r.out| > 0 && r.out[|r.out| - 1] == PauseProducing(w.producer.value)))
  {
    if !(w.disconnecting && w.producer.None?) && !w.lost {
      SendLoopConserves(w, data, e);
      if w.producer.Some? {
        SendLoopPauses(w, data, e);
      }
    }
  }
}

=== FILE: upgrade.dfy ===
/**
 * `startTLS` and the wrapper's `makeConnection`: switching a plain
 * transport to TLS in the middle of a connection (the XMPP STARTTLS step).
 */
module TlsUpgrade {
  import opened Base
  import opened TlsEngine
  import opened TlsSession

  /** The direction chosen and what the upgrade did. */
  datatype Upgrade = Upgrade(client: bool, step: Step)

  /** Which side of the TLS handshake this end plays. */
  function Direction(clientDefault: bool, normal: bool): (client: bool)
    ensures client <==> (normal <==> clientDefault)
  {
    if normal then clientDefault else !clientDefault
  }

  /**
   * `makeConnection` on a new wrapper: start the handshake (engine call 0);
   * when it would block, flush what it produced; any other failure escapes.
   * The application protocol is not told (`_connectWrapped` is false).
   */
  function MakeConnection(e: Oracle): (r: Step)
    ensures r.w.calls > 0 && Inv(r.w)
    ensures !r.w.lost && !r.w.disconnecting && !r.w.handshakeDone
    ensures r.w.sendBuffer == [] && r.w.producer.None? && r.w.reason.None?
    ensures forall x :: x in r.out ==> x.TransportWrite?
    ensures e.handshake(0).HandshakeDone? ==> r.out == [] && r.escaped.None?
    ensures e.handshake(0).HandshakeError? ==>
              r.out == [] && r.escaped == Some(EngineRaised(e.handshake(0).code, e.handshake(0).message))
  {
    var w := Tick(Fresh());
    match e.handshake(0)
    case HandshakeDone => Step(w, [], None)
    case HandshakeWouldBlock => FlushSend(w, e)
    case HandshakeError(c, m) => Step(w, [], Some(EngineRaised(c, m)))
  }

  /**
   * `startTLS`: pick the direction, take the transport's producer off it,
   * wrap the transport and connect the wrapper, then register the producer
   * again, now through the wrapper.
   */
  function StartTLS(clientDefault: bool, normal: bool, producer: Option<Producer>, e: Oracle): (u: Upgrade)
    ensures u.client == Direction(clientDefault, normal)
    ensures producer.None? ==> u.step == MakeConnection(e)
    ensures producer.Some? ==> |u.step.out| > 0 && u.step.out[0] == TransportUnregisterProducer
  {
    var client := Direction(clientDefault, normal);
    var off := if producer.Some? then [TransportUnregisterProducer] else [];
    var m := MakeConnection(e);
    if m.escaped.Some? || producer.None? then Upgrade(client, Step(m.w, off + m.out, m.escaped))
    else
      var g := RegisterProducer(m.w, producer.value);
      Upgrade(client, Step(g.w, off + m.out + g.out, g.escaped))
  }

  /**
   * A producer the transport had before the upgrade is registered again
   * with the wrapper, in the same mode, unless the handshake failed; and the
   * new wrapper starts with no writes pending and the TLS connection up.
   */
  lemma StartTLSKeepsProducer(clientDefault: bool, normal: bool, p: Producer, e: Oracle)
    ensures var u := StartTLS(clientDefault, normal, Some(p), e);
      && (!e.handshake(0).HandshakeError? && u.step.escaped.None? ==>
            && u.step.w.producer == Some(p)
            && TransportRegisterProducer(p) in u.step.out
            && (StartStreaming(p) in u.step.out <==> !p.streaming))
      && (e.handshake(0).HandshakeError? ==> u.step.w.producer.None? && TransportRegisterProducer(p) !in u.step.out)
      && Inv(u.step.w) && !u.step.w.lost && !u.step.w.writeBlocked
  {
    var m := MakeConnection(e);
    var u := StartTLS(clientDefault, normal, Some(p), e);
    if m.escaped.None? {
      var g := RegisterProducer(m.w, p);
      assert u.step.out == [TransportUnregisterProducer] + m.out + g.out;
      assert g.out[0] in u.step.out;
      if StartStreaming(p) in u.step.out {
        assert StartStreaming(p) in g.out;
      }
    } else {
      assert u.step.out == [TransportUnregisterProducer] + m.out;
    }
  }
}
